=== FILE: README.md ===
# BBS board store: read models, board instance and request table

This Dafny project models the incremental read-model engine of the BBS board store. The store keeps boards, threads, posts and votes in an external content-addressed object store. Each board has a `BoardInstance` that holds:

- the installed pack instance: a snapshot plus the content that is new since the previous snapshot;
- a set of views that fold that new content into read-optimised projections;
- a bounded, lossy queue of change notifications;
- an update-needed flag.

The model also covers the single-flight request table (`Incomplete`). It maps each outstanding request hash to a one-slot mailbox.

Every operation is a pure function over immutable datatypes and runs atomically. The modules follow the source files:

- `Boo` (boo.dfy): the error kinds `AlreadyExists`, `NotFound`, `NotAllowed` and `Internal`, plus an opaque `Foreign` error from the object store. Also `Option`, `Result` and `Outcome`.
- `R0` (r0.dfy): content items (a hash and a typed body, with the body variant acting as the type tag). Also the pages a snapshot is read through: the board, the thread pages and the user profiles.
- `Reps` (reps.dfy): the board, thread, post and vote representations and their views. The vote aggregate `VotesRep` is the main part: `Add` folds one voter's vote into it, and a proved invariant says the up and down tallies always equal the numbers of up and down voters.
- `ContentViews` (content_view.dfy): the index of threads and posts, the content map and the vote aggregates. `Init` builds it from a full scan and `Update` folds a diff into it.
- `FollowViews` (follow_view.dfy): per-user follow records built from user votes only.
- `BoardInstances` (board_instance.dfy): the instance as a state machine over an abstract pack instance `P`, an unpacked pack `K`, a view type `V` and a query reply `Y`. The object store and the view operations are passed in as records of functions.
- `Incompletes` (incomplete.dfy): the request table.

Two things in the source are modelled as written:

- The content view files a counted vote under the vote item's own hash (`VoteKey`), not under its target's hash. Every vote item therefore gets an aggregate of its own.
- The source creates a vote aggregate with `Fill(cType, cHash)` and folds it with `Add(c)`. Neither call matches the signatures declared in rep.go. The model reads them as "fill with the key, then add the vote's (creator, mode)".

The follow view calls `Set` with the vote's creator (not its target), a value and a tag; the model passes these on unchanged.

## Model

| member | source | states |
|---|---|---|
| Reps.BoardView | src/store/state/views/content_view/rep.go:42-54 | nil rep gives nil view; otherwise fields are copied and the thread count is the length of the thread list |
| Reps.ThreadView | src/store/state/views/content_view/rep.go:104-117 | nil rep gives nil view; otherwise fields and the given vote view are copied and the post count is the length of the post list |
| Reps.PostView | src/store/state/views/content_view/rep.go:150-162 | nil rep gives nil view; otherwise fields and the given vote view are copied |
| Reps.Fill | src/store/state/views/content_view/rep.go:175-179 | the aggregate points at the given hash and holds no votes; tallies are not reset |
| Reps.FillIsWellFormed | src/store/state/views/content_view/rep.go:175-179 | a fresh aggregate after Fill has zero tallies and satisfies the tally invariant |
| Reps.Add | src/store/state/views/content_view/rep.go:181-199 | after a +1/-1 (any non-zero) vote the voter's entry is that vote; after a mode-0 vote the voter has no entry; every other voter's entry is unchanged and no other voter appears |
| Reps.AddKeepsWellFormed | src/store/state/views/content_view/rep.go:181-199 | Add preserves "UpCount = number of +1 voters, DownCount = number of -1 voters, entries keyed by their creator, no stored retraction"; so both counts stay non-negative |
| Reps.VoterCountAfterAdd | src/store/state/views/content_view/rep.go:182-198 | the number of voters with a counted mode drops by one if the voter's old vote had it and rises by one if the new vote has it |
| Reps.FoldKeepsWellFormed | src/store/state/views/content_view/rep.go:181-199 | any sequence of votes folded from a well-formed aggregate leaves it well formed |
| Reps.RetractedVoterLeavesNoTrace | src/store/state/views/content_view/rep.go:181-199 | one voter folding +1, -1, +1, 0 into a fresh aggregate leaves Up=0, Down=0 and no entry |
| Reps.ReVoteCountsOnce | src/store/state/views/content_view/rep.go:181-199 | one voter folding +1, -1, +1 leaves Up=1, Down=0 and exactly that voter's +1 entry |
| Reps.VotesView | src/store/state/views/content_view/rep.go:212-228 | nil gives nil; counts copied; Up.Voted iff the perspective voter's vote has mode +1, Down.Voted iff it has mode -1 |
| Reps.VotesViewCountsVoters | src/store/state/views/content_view/rep.go:212-228 | on a well-formed aggregate the view's counts are the numbers of up and down voters, the Voted flags mean membership among them, and both flags are never set together |
| ContentViews.NewIndexPage | src/store/state/views/content_view/view.go:17-21 | a new index has no threads and an empty post map |
| ContentViews.ProcessVote | src/store/state/views/content_view/view.go:132-165 | never returns an error; a non-vote item or a vote whose target is not in the content map changes nothing; a counted vote adds or updates exactly the aggregate under the vote's own hash, records (creator, mode) there or removes the creator on mode 0, and touches no other aggregate, the index or the content map; an existing aggregate keeps its hash and every other voter's entry, a new one points at the vote's hash and holds at most that voter |
| ContentViews.StartRep | src/store/state/views/content_view/view.go:156-160 | the aggregate a vote under a key is folded into: the one already filed under that key, otherwise a fresh one pointing at the key with no voters and zero tallies |
| ContentViews.FoldVote | src/store/state/views/content_view/view.go:157-162 | the votes map gains exactly the given key; no other aggregate, the index or the content map changes; a new aggregate points at the key and holds at most the voter; an existing one keeps its key and every other voter's entry; the voter's entry is the vote, or gone on mode 0 |
| ContentViews.ProcessVoteKeepsConsistent | src/store/state/views/content_view/view.go:157-162 | folding a vote keeps every aggregate pointing at its key and well formed |
| ContentViews.ScanThreads | src/store/state/views/content_view/view.go:53-83 | the scan fails iff some thread page (its thread, or its post range) cannot be read, with the first such page's error, the thread's before the posts'; on success the thread list gains every thread hash in snapshot order |
| ContentViews.AddThreadPage | src/store/state/views/content_view/view.go:56-79 | fails iff the page's thread or post range cannot be read, the thread's error first; on success the thread hash is appended to the thread list, its post list is the page's post hashes in order, other threads' lists are untouched, and the thread and every post get a representation while earlier ones stay |
| ContentViews.ScanThreadsPostKeys | src/store/state/views/content_view/view.go:56-79 | after the scan the post map holds the old threads plus every scanned thread; other threads' lists are untouched |
| ContentViews.ScanThreadsPosts | src/store/state/views/content_view/view.go:68-77 | after the scan each scanned thread's post list holds the post hashes of the page scanned last under its hash, in scan order |
| ContentViews.ScanThreadsContent | src/store/state/views/content_view/view.go:62-72 | every scanned thread and post gets a representation; earlier representations stay |
| ContentViews.ScanVotes | src/store/state/views/content_view/view.go:85-89 | scanning submissions changes only the votes map and never drops an aggregate |
| ContentViews.ScanVotesKeys | src/store/state/views/content_view/view.go:85-89 | the submission scan creates an aggregate for exactly the thread and post votes whose target is known, filed under the vote's own hash; unknown targets and other items leave no trace |
| ContentViews.ScanVotesFold | src/store/state/views/content_view/view.go:85-89 | the aggregate under a key exists after the scan iff it existed before or some counted submitted vote is filed under that key; it is the old (or a fresh) aggregate with exactly those votes folded in, in scan order |
| ContentViews.ScanVotesKeepsConsistent | src/store/state/views/content_view/view.go:85-89 | scanning submissions keeps every aggregate well formed |
| ContentViews.Init | src/store/state/views/content_view/view.go:31-90 | fails iff the pages, the board, a thread page or a profile cannot be read, with the pages' or the board's own error when those fail; on success: the i-th thread hash is at index i, the post map holds exactly the thread hashes, each holding that thread's post hashes in scan order, board and threads have representations, the aggregates are exactly those of the counted submitted votes, each is a fresh aggregate for its key with exactly the counted votes filed under that key folded in in scan order, and all are well formed |
| ContentViews.FullScan | src/store/state/views/content_view/view.go:45-89 | the index and content facts of a completed scan: board, thread order, post lists and representations, which the vote scan keeps |
| ContentViews.FullScanVotes | src/store/state/views/content_view/view.go:85-89 | after a completed scan the aggregates are exactly those of the counted submitted votes, each is a fresh aggregate for its key folding the counted votes under that key in scan order, and all are well formed |
| ContentViews.ThreadScan | src/store/state/views/content_view/view.go:45-83 | the thread part of a full scan: board, thread order, post lists, representations, and no aggregate yet |
| ContentViews.ScanVotesFromNone | src/store/state/views/content_view/view.go:85-89 | a submission scan from no aggregates leaves under each key a fresh aggregate with the counted votes filed under that key folded in, in scan order |
| ContentViews.ApplyItem | src/store/state/views/content_view/view.go:110-128 | a thread appends its hash to the thread list (prefix kept); a post appends its hash to its thread's list, created from empty when missing; a vote goes through ProcessVote; any other item, and a vote with unknown target, leaves the view unchanged |
| ContentViews.ApplyDiff | src/store/state/views/content_view/view.go:110-128 | folding a diff keeps the key and the board, forgets no representation, and records every thread and post item of the diff |
| ContentViews.ApplyDiffIndex | src/store/state/views/content_view/view.go:110-128 | folding a diff appends exactly its thread items to the thread list and each thread's post items to that thread's list, in diff order; post lists exist for the old threads plus every thread a post names |
| ContentViews.ApplyItemVotes | src/store/state/views/content_view/view.go:125-126 | a diff item that is not a counted vote leaves the votes map as it was; a counted vote folds its (creator, mode) into the aggregate under its own hash |
| ContentViews.ApplyDiffVotes | src/store/state/views/content_view/view.go:110-128 | the aggregate under a key exists after folding a diff iff it existed before or some diff vote counted at its turn is filed under that key; it is the old (or a fresh) aggregate with exactly those votes folded in, in diff order |
| ContentViews.ApplyDiffVoteKeys | src/store/state/views/content_view/view.go:110-128 | folding a diff adds an aggregate for exactly the diff's vote items counted at their turn, under their own hashes, and drops none |
| ContentViews.ApplyDiffKeepsConsistent | src/store/state/views/content_view/view.go:110-128 | folding a diff keeps every aggregate well formed |
| ContentViews.IgnoredItemsChangeNothing | src/store/state/views/content_view/view.go:112-127 | a diff of board and user-vote items only leaves the whole view unchanged |
| ContentViews.InstallBoard | src/store/state/views/content_view/view.go:104-106 | the old board hash leaves the content map and the new board is recorded under its hash; index lists and votes untouched |
| ContentViews.Update | src/store/state/views/content_view/view.go:92-130 | fails iff the pages or the board cannot be read, with that error; on success the board is the new one, the thread list is the old one followed by the diff's thread items, each thread's post list is its old one followed by the diff's posts for it, post lists exist for the old threads plus every thread a post names, the content map keeps every old entry but the old board and holds the new board and every thread and post item of the diff, the aggregates are the old ones plus one per counted vote of the diff, each the old (or a fresh) aggregate with the diff's counted votes under its key folded in in diff order, and an empty diff leaves threads, posts and votes unchanged |
| ContentViews.UpdateKeepsConsistent | src/store/state/views/content_view/view.go:92-130 | a successful update keeps every aggregate well formed |
| FollowViews.ApplySubmission | src/store/state/views/follow_view/view.go:54-64 | a non-user-vote item changes nothing; a user vote from c leaves c in the map, calls Set on c's existing record (or a new one) and keeps other users' records |
| FollowViews.ApplyAll | src/store/state/views/follow_view/view.go:50-65 | applying submissions never drops a user's record, and a sequence without user votes changes nothing |
| FollowViews.Update | src/store/state/views/follow_view/view.go:48-68 | never fails; the map's users become the old ones plus the creators of the diff's user votes; every other user keeps the same record; the result equals applying only the diff's user votes; an empty diff leaves the map unchanged |
| FollowViews.Init | src/store/state/views/follow_view/view.go:14-46 | fails iff the pages or some profile cannot be read, with the pages' error or the first unreadable profile's error; otherwise equals an update of the empty map with every submission in scan order |
| FollowViews.Get | src/store/state/views/follow_view/view.go:74-88 | succeeds iff the id is FollowPage and there is exactly one argument; otherwise NotAllowed; unknown user gives the default view carrying that key, known user gives its record's view |
| FollowViews.ApplyAllKeys | src/store/state/views/follow_view/view.go:50-65 | after a diff the map's users are the old ones plus the creators of its user votes |
| FollowViews.OnlyUserVotesMatter | src/store/state/views/follow_view/view.go:50-65 | applying a diff equals applying only its user-vote items |
| FollowViews.OtherUsersUntouched | src/store/state/views/follow_view/view.go:56-63 | a user with no user vote in the diff keeps the same record |
| FollowViews.GetAfterUserVote | src/store/state/views/follow_view/view.go:54-63 | right after a user vote from u, the FollowPage query for u answers the view of u's record as Set left it, reused or fresh |
| FollowViews.GetWithoutUserVote | src/store/state/views/follow_view/view.go:77-80 | a user with no record and no user vote in the applied items is answered with the default view carrying its key |
| BoardInstances.UnpackFlag | src/store/state/board_instance.go:59-62 | the flags are HashTableIndex and EntireTree, plus ViewOnly iff the instance is not master |
| BoardInstances.Push | src/store/state/board_instance.go:134-145 | pushing never blocks; the result holds at most 10 entries, ends with the new one, and is the newest 10 of old queue plus new entry |
| BoardInstances.PushAllKeepsNewest | src/store/state/board_instance.go:134-145 | after any pushes to an undrained queue it holds the newest min(N,10) entries in push order |
| BoardInstances.FifteenPushesKeepLastTen | src/store/state/board_instance.go:55 | 15 pushes into an empty queue leave exactly the last 10 |
| BoardInstances.RunViews | src/store/state/board_instance.go:126-131 | views are stepped in order; on success each view holds its step's result; on failure the error is the failing view's wrapped as Internal, views before it keep their new state and the rest are unchanged |
| BoardInstances.RunViewsStep | src/store/state/board_instance.go:126-131 | what the run over the later views establishes, after the first view was stepped, carries over to the whole order, for success and for the failure position |
| BoardInstances.NewBoardInstance | src/store/state/board_instance.go:42-88 | succeeds iff unpacking, building the first pack instance and initialising every view succeed; on success the flags follow the master setting, the queue is empty, the flag is clear, the pack instance is built from the unpacked root with no predecessor and every view is initialised; unpack and pack-instance errors come back unchanged; a view failure is the failing view's error wrapped as Internal |
| BoardInstances.ChangePack | src/store/state/board_instance.go:196-205 | a failed change leaves the state unchanged and returns its error; a successful one installs the new pack instance and nothing else |
| BoardInstances.SaveAndFetch | src/store/state/board_instance.go:96-105 | the pack instance is left as the save left it, whether or not the save succeeded; a failed save is returned; otherwise the root is the store's latest full root for the board |
| BoardInstances.Target | src/store/state/board_instance.go:94-112 | the root an update moves to: the given one with the pack instance untouched, otherwise the saved-and-fetched one |
| BoardInstances.Change | src/store/state/board_instance.go:92-149 | the change never swaps in a new pack instance and keeps master, key, flags, flag and view ids; a non-master with no root hands back the installed instance; the installed instance is as the master's save left it; lookup, unpack and pack-instance errors come back unchanged with only the save's effect; a failed change keeps the queue, and everything but the saved pack unless a view failed; a successful one builds the next instance from the unpacked target root against the saved one, queues its changes and every view holds its update |
| BoardInstances.MoveTo | src/store/state/board_instance.go:114-148 | from the root lookup on: only views and queue may change; a lookup, unpack or pack-instance error comes back unchanged with the instance as the lookup left it; success builds the next instance from the unpacked root against the installed one, queues its changes and every view holds its update; a failure keeps the queue |
| BoardInstances.Update | src/store/state/board_instance.go:91-150 | no root on a non-master is a no-op; success installs the pack instance built from the (given or saved-and-fetched) root against the installed one as the save left it, queues its changes and every view holds its update; save, fetch, unpack and pack-instance errors come back unchanged, and the only other change is what the master's save did to the installed pack; any failure keeps the queue |
| BoardInstances.SaveSurvivesFailedLookup | src/store/state/board_instance.go:96-108 | when a master's save succeeds but the root lookup fails, the update returns the lookup's error and the saved pack stays installed |
| BoardInstances.ViewFailureIsNotRolledBack | src/store/state/board_instance.go:126-131 | a view failure yields Internal, no swap, no notification, and the views updated before it keep their new state |
| BoardInstances.Get | src/store/state/board_instance.go:157-167 | an unknown view id is NotFound; otherwise the view's own answer, unchanged |
| BoardInstances.WaitSeq | src/store/state/board_instance.go:241-244 | the wait returns at once iff the installed sequence number has reached the goal |
| BoardInstances.WaitAfterUpdate | src/store/state/board_instance.go:91-150 | when the store builds a root's pack instance with the root's sequence number, after a successful update to that root GetSeq is that number, a wait returns at once iff the number has reached the goal, and the last queued notification is that update's changes |
| BoardInstances.GetAfterUpdate | src/store/state/board_instance.go:157-167 | after a successful update an unknown view id is still NotFound and a known view answers from its updated state |
| BoardInstances.SwapLaws | src/store/state/board_instance.go:196-205 | handing the swap the installed instance changes nothing; of two swaps only the second one's instance stays |
| BoardInstances.GetSeq | src/store/state/board_instance.go:232-239 | the sequence number of the installed pack instance's root |
| BoardInstances.UpdateNeeded | src/store/state/board_instance.go:174-178 | reads the flag that PackEdit raises and ClearUpdateNeeded lowers |
| BoardInstances.SetUpdateNeeded | src/store/state/board_instance.go:180-184 | the flag reads true and nothing else changes |
| BoardInstances.ClearUpdateNeeded | src/store/state/board_instance.go:186-190 | the flag reads false and nothing else changes |
| BoardInstances.PackEdit | src/store/state/board_instance.go:215-226 | the action's error is returned; the pack instance the action edited stays installed whatever its outcome; the flag is raised iff the action succeeds and nothing else changes |
| BoardInstances.EditIsSavedByNextUpdate | src/store/state/board_instance.go:96-105 | after a successful edit, a master's next update without a root saves the edited pack (a save error comes back with the state as the edit and the save left it) and leaves the flag raised |
| Incompletes.NewIncomplete | src/msgs/incomplete.go:19-23 | the table starts empty |
| Incompletes.Add | src/msgs/incomplete.go:25-35 | a hash in flight gives AlreadyExists and no change; otherwise the table gains exactly that hash with an empty mailbox, whose state is returned |
| Incompletes.Remove | src/msgs/incomplete.go:37-44 | afterwards the hash is absent, other entries are unchanged, and an absent hash is a no-op with nothing left over; the removed mailbox's content is handed back, as the closed channel still yields a buffered response to its receiver |
| Incompletes.Satisfy | src/msgs/incomplete.go:46-56 | the key set never changes; an absent hash or a full mailbox drops the response; an empty mailbox receives it |
| Incompletes.Receive | src/msgs/incomplete.go:32-34 | the registrant's receive on its one-slot mailbox while the request is in flight takes a delivered response and empties the slot; an empty slot yields nothing; the key set and other mailboxes never change; after removal the table holds no mailbox, and what the closed channel still holds is Remove's leftover |
| Incompletes.ReceiveTakesDelivery | src/msgs/incomplete.go:32-34 | receiving right after a delivery into an empty mailbox takes that response and gives back the table as it was before the delivery |
| Incompletes.SatisfyAfterReceiveDelivers | src/msgs/incomplete.go:46-56 | after the registrant has taken a first response, a second response for the same request is delivered rather than dropped |
| Incompletes.AddTwiceFails | src/msgs/incomplete.go:28-31 | registering a hash twice fails the second time and keeps the first registration |
| Incompletes.RemoveUndoesAdd | src/msgs/incomplete.go:32-44 | removing a fresh registration that got no response gives back the original table and nothing left over |
| Incompletes.RemoveIsIdempotent | src/msgs/incomplete.go:37-44 | removing twice leaves the table of removing once, and the second removal finds nothing left |
| Incompletes.SatisfyAfterRemoveIsNoOp | src/msgs/incomplete.go:46-56 | a response after its request's removal is dropped |
| Incompletes.RemoveKeepsDelivery | src/msgs/incomplete.go:32-56 | a response delivered to a fresh registration before its removal is handed back by the removal, which restores the table as it was before the registration |
| Incompletes.RemoveAfterReceiveLeavesNothing | src/msgs/incomplete.go:32-56 | a response the registrant already took is not handed back again by the later removal, which restores the original table |
| Incompletes.SatisfyDeliversOnce | src/msgs/incomplete.go:50-55 | two responses for one fresh registration without a drain: the first is delivered, the second dropped |
| R0.Submissions | src/store/state/views/content_view/view.go:85-89 | fails iff some profile cannot be read, with the first such profile's error |
| R0.SubmissionsInScanOrder | src/store/state/views/content_view/view.go:85-89 | when every profile can be read, the scan yields each profile's submissions in its own order, profile after profile, as defined independently by Concat |
| R0.EverySubmissionIsScanned | src/store/state/views/content_view/view.go:85-89 | every submission of every readable profile is among the scanned submissions |

## Left out

- Locks (the instance mutex, the update-needed RWMutex, the view and table mutexes): every operation is modelled as atomic and sequential.
- The polling loop of `WaitSeq` (ticker and cancellation context): only the immediate-return check is modelled.
- The object store and pack internals are function parameters that may fail. These are `Unpack`, `Save`, `LastFull`, `NewPackInstance`, the changes of a pack instance, and the root sequence number. The sequence-monotonicity check inside `NewPackInstance` is not part of this model, so nothing is proved about `GetSeq` growing.
- `Publish` is fire-and-forget and has no effect on the modelled state, so it is omitted from the master's update path.
- The r0 page traversal is taken as already-read data: `Pages`, `ThreadPage` and `UserProfile`. Reading the pages, the board, a thread, a thread's post range and a profile's submission range may each fail; a failing range fails as a whole, so which post or submission inside it failed is not modelled. Both views read the same pages, although the source asks for them with different options.
- The thread list and each post list are pre-sized in the source from `GetThreadCount` and `GetPostCount` and then filled by index. The model appends instead, so a count that differs from the number of pages or posts ranged over is not modelled.
- The r0 `ToRep` conversion is not part of this model: a representation keeps the content item.
- `FollowRep` (its constructor, `Set` and `View`) is not part of this model. These are passed in as functions, so nothing is proved about what `Set` records.
- Content items carry no separate header type: the body variant is the type tag, so a header type that disagrees with its body is not modelled.
- Hex encoding in the `View` functions and logging are omitted. Hashes and keys are strings.
- `BoardRep.Fill`, `ThreadRep.FillThread`, `ThreadRep.FillThreadPage` and `PostRep.Fill` copy fields from objects that are not part of this model. They are not modelled.
- `PackRead` and `ChangesChan` are plain accessors and are not modelled.
- `GetSeq` returns a `uint64`; the model uses an unbounded natural number.
- FollowViews.Get: the type assertion of the first argument to a string is not modelled, because arguments are modelled as strings.
- A thread, post or profile read failing half-way through `ContentView.Init` (view.go), or a profile read failing half-way through `FollowView.Init` (follow_view/view.go:17 and 25-45), leaves a partly filled view in the source; the model returns only the error, since the instance is then not built.
- BoardInstances.Get: the source calls the view's `Get` with the argument slice `a` without spreading it (`a` rather than `a...`), so a variadic view such as the follow view receives one argument holding the whole slice. The view adapter in package `views` is not part of this model; the model assumes it hands the view the list unpacked.
- BoardInstances.PackEdit: what an edit does inside the pack is abstract. The model only records that the edited pack instance stays installed, even after a failing edit, and that the master's next update saves it.
- Incompletes.Add: the source returns the mailbox channel itself, shared with the table. The model returns the mailbox's state and models the registrant's receive on that channel as `Receive` on the table; a receive that blocks until a response arrives is not modelled.
- Incompletes.Remove: closing the removed mailbox is modelled by handing back its content as `leftover`; that receives on a closed channel go on yielding nil after the leftover is taken is not modelled, because the table no longer holds the channel.

=== FILE: board_instance.dfy ===
/** One board's instance: the installed pack instance, the registered views,
    the bounded change-notification queue and the update-needed flag. Every
    operation is atomic; the pack instance, the unpacked pack and the views
    are abstract, and the object store is a record of functions. */
module BoardInstances {
  import opened Boo
  import opened R0

  // Unpack flags.

  datatype FlagBit = HashTableIndex | EntireTree | ViewOnly

  /** The flags a pack is unpacked with. */
  type Flag = set<FlagBit>

  /** The unpack flags of an instance: a hash-table index over the entire
      tree, read-only exactly when the instance is not the board's master. */
  function UnpackFlag(master: bool): (f: Flag)
    ensures f - {ViewOnly} == {HashTableIndex, EntireTree}
    ensures ViewOnly in f <==> !master
  {
    {HashTableIndex, EntireTree} + (if master then {} else {ViewOnly})
  }

  // The object store and the views, as the instance sees them.

  /** A root of a board's tree as the object store hands it out. */
  datatype Root = Root(pub: PubKey, seqNo: nat, hash: Hash)

  /** A change notification: the new content items of one update. */
  type Changes = seq<Content>

  /** What this model does not see of the object store and the pack
      internals: saving a pack (which may change the installed pack in
      place, whether or not it succeeds), the latest fully synced root of a board,
      unpacking a root, building a pack instance against its predecessor
      (none for the first), the changes a pack instance carries, and the
      sequence number of its root. */
  datatype Store<!P, !K> = Store(
    save: P -> Edited<P>,
    lastFull: PubKey -> Result<Root>,
    unpack: (Root, Flag) -> Result<K>,
    newPackInstance: (Option<P>, K) -> Result<P>,
    changes: P -> Changes,
    seqOf: P -> nat)

  /** What every registered view offers: build from a pack instance, update
      to a new pack instance, answer a query. */
  datatype ViewOps<!V, !P, Y> = ViewOps(
    init: (V, P) -> Result<V>,
    update: (V, P) -> Result<V>,
    get: (V, string, seq<string>) -> Result<Y>)

  datatype BoardInstance<P, V> = BoardInstance(
    master: bool,
    pk: PubKey,
    flag: Flag,
    pi: P,
    views: map<string, V>,
    changes: seq<Changes>,
    needUpdate: bool)

  /** The state after an operation and the error it returned. */
  datatype Step<P, V> = Step(state: BoardInstance<P, V>, outcome: Outcome)

  // The change-notification queue.

  /** The capacity of the change-notification queue. */
  const ChangesCapacity: nat := 10

  /** The newest `ChangesCapacity` entries of `s`, oldest first. */
  function Newest(s: seq<Changes>): seq<Changes>
  {
    if |s| <= ChangesCapacity then s else s[|s| - ChangesCapacity..]
  }

  /** Queues a notification without blocking: while the queue is full its
      oldest entry is dropped, then the new one goes in at the back. */
  function Push(q: seq<Changes>, x: Changes): (r: seq<Changes>)
    requires |q| <= ChangesCapacity
    ensures |r| <= ChangesCapacity && |r| > 0 && r[|r| - 1] == x
    ensures r == Newest(q + [x])
    decreases |q|
  {
    if |q| < ChangesCapacity then q + [x]
    else
      assert (q[1..] + [x]) == (q + [x])[1..];
      Push(q[1..], x)
  }

  /** Queues notifications in order. */
  function PushAll(q: seq<Changes>, xs: seq<Changes>): seq<Changes>
    requires |q| <= ChangesCapacity
    decreases |xs|
  {
    if |xs| == 0 then q else PushAll(Push(q, xs[0]), xs[1..])
  }

  /** Keeping the newest entries of a prefix first does not change the
      newest entries of the whole. */
  lemma NewestOfNewest(s: seq<Changes>, t: seq<Changes>)
    ensures Newest(Newest(s) + t) == Newest(s + t)
  {
    if |s| > ChangesCapacity {
      var k := |s| - ChangesCapacity;
      var u := s[k..] + t;
      assert Newest(s) == s[k..];
      assert |u| == ChangesCapacity + |t|;
      assert Newest(u) == u[|t|..];
      assert (s + t)[k..] == u;
      assert (s + t)[k + |t|..] == u[|t|..];
    }
  }

  /** An undrained queue keeps the newest `ChangesCapacity` of everything
      ever pushed, in push order. */
  lemma {:induction false} PushAllKeepsNewest(q: seq<Changes>, xs: seq<Changes>)
    requires |q| <= ChangesCapacity
    ensures PushAll(q, xs) == Newest(q + xs)
    decreases |xs|
  {
    if |xs| > 0 {
      var q' := Push(q, xs[0]);
      calc {
        PushAll(q, xs);
        PushAll(q', xs[1..]);
        { PushAllKeepsNewest(q', xs[1..]); }
        Newest(q' + xs[1..]);
        Newest(Newest(q + [xs[0]]) + xs[1..]);
        { NewestOfNewest(q + [xs[0]], xs[1..]); }
        Newest((q + [xs[0]]) + xs[1..]);
        { HeadThenTail(q, xs); }
        Newest(q + xs);
      }
    }
  }

  /** Pushing the head, then the tail, is pushing the whole. */
  lemma HeadThenTail(q: seq<Changes>, xs: seq<Changes>)
    requires |xs| > 0
    ensures (q + [xs[0]]) + xs[1..] == q + xs
  {
    assert xs == [xs[0]] + xs[1..];
  }

  /** Fifteen notifications pushed into an empty, undrained queue leave
      exactly the last ten. */
  lemma FifteenPushesKeepLastTen(xs: seq<Changes>)
    requires |xs| == 15
    ensures PushAll([], xs) == xs[5..]
  {
    PushAllKeepsNewest([], xs);
    assert [] + xs == xs;
  }

  // Running the views.

  /** `order` lists every view id exactly once: the order a range over the
      view map happens to take. */
  predicate Enumerates<V>(order: seq<string>, views: map<string, V>)
  {
    && (forall i :: 0 <= i < |order| ==> order[i] in views)
    && (forall i, j :: 0 <= i < j < |order| ==> order[i] != order[j])
    && (forall k :: k in views ==> k in order)
  }

  /** The views after a run, and the error that stopped it. */
  datatype ViewsRun<V> = ViewsRun(views: map<string, V>, outcome: Outcome)

  /** Runs `step` on each view in turn, storing each result, and stops at the
      first failure with that failure wrapped as `Internal`. Views stepped
      before the failure keep their new state: nothing is rolled back. */
  function RunViews<V(==), P>(views: map<string, V>, order: seq<string>, step: (V, P) -> Result<V>, pi: P): (r: ViewsRun<V>)
    requires forall i :: 0 <= i < |order| ==> order[i] in views
    requires forall i, j :: 0 <= i < j < |order| ==> order[i] != order[j]
    ensures r.views.Keys == views.Keys
    ensures forall k :: k in views && k !in order ==> r.views[k] == views[k]
    ensures r.outcome.Pass? ==> forall i :: 0 <= i < |order| ==> step(views[order[i]], pi) == Ok(r.views[order[i]])
    ensures r.outcome.Fail? ==> exists j :: 0 <= j < |order| && FailedAt(views, order, step, pi, r, j)
    decreases |order|
  {
    if |order| == 0 then ViewsRun(views, Pass)
    else
      var id := order[0];
      match step(views[id], pi)
      case Err(e) =>
        var r := ViewsRun(views, Fail(Internal(e)));
        assert FailedAt(views, order, step, pi, r, 0);
        r
      case Ok(v) =>
        var rest := order[1..];
        assert forall i :: 0 <= i < |rest| ==> rest[i] == order[i + 1] && rest[i] != id;
        var r := RunViews(views[id := v], rest, step, pi);
        RunViewsStep(views, order, step, pi, v, views[id := v], rest, r);
        r
  }

  /** One step of `RunViews`: after the first view was stepped to `v`, what
      the run over the remaining views establishes carries over to the
      whole order. */
  lemma RunViewsStep<V, P>(views: map<string, V>, order: seq<string>, step: (V, P) -> Result<V>, pi: P,
                           v: V, later: map<string, V>, rest: seq<string>, r: ViewsRun<V>)
    requires |order| > 0 && rest == order[1..] && later == views[order[0] := v]
    requires forall i :: 0 <= i < |order| ==> order[i] in views
    requires forall i, j :: 0 <= i < j < |order| ==> order[i] != order[j]
    requires step(views[order[0]], pi) == Ok(v)
    requires r.views.Keys == views.Keys
    requires order[0] in r.views && r.views[order[0]] == v
    requires r.outcome.Pass? ==> forall i :: 0 <= i < |rest| ==> step(later[rest[i]], pi) == Ok(r.views[rest[i]])
    requires r.outcome.Fail? ==> exists j :: 0 <= j < |rest| && FailedAt(later, rest, step, pi, r, j)
    ensures r.outcome.Pass? ==> forall i :: 0 <= i < |order| ==> step(views[order[i]], pi) == Ok(r.views[order[i]])
    ensures r.outcome.Fail? ==> exists j :: 0 <= j < |order| && FailedAt(views, order, step, pi, r, j)
  {
    var id := order[0];
    assert forall i :: 0 <= i < |rest| ==> rest[i] == order[i + 1] && rest[i] != id;
    if r.outcome.Pass? {
      forall i | 0 <= i < |order| ensures step(views[order[i]], pi) == Ok(r.views[order[i]]) {
        if i > 0 {
          assert order[i] == rest[i - 1];
        }
      }
    } else {
      var j :| 0 <= j < |rest| && FailedAt(later, rest, step, pi, r, j);
      assert FailedAt(views, order, step, pi, r, j + 1);
    }
  }

  /** A run that failed at position `j`: the view there failed with the
      returned error, the views before it were stepped, the views from it
      on are as they were. */
  predicate FailedAt<V(==), P>(views: map<string, V>, order: seq<string>, step: (V, P) -> Result<V>, pi: P,
                           r: ViewsRun<V>, j: int)
    requires forall i :: 0 <= i < |order| ==> order[i] in views
    requires r.views.Keys == views.Keys
  {
    && 0 <= j < |order|
    && step(views[order[j]], pi).Err?
    && r.outcome == Fail(Internal(step(views[order[j]], pi).error))
    && (forall i :: 0 <= i < j ==> step(views[order[i]], pi) == Ok(r.views[order[i]]))
    && (forall i :: j <= i < |order| ==> r.views[order[i]] == views[order[i]])
  }

  // Building and updating the instance.

  /** Builds an instance: unpacks `root` with the instance's flags, makes
      the first pack instance from it, and initialises every view, failing
      with `Internal` on the first view that cannot be built. */
  function NewBoardInstance<P(==), K, V(==), Y(==)>(store: Store<P, K>, ops: ViewOps<V, P, Y>, master: bool, pk: PubKey,
                                        root: Root, views: map<string, V>, order: seq<string>)
    : (r: Result<BoardInstance<P, V>>)
    requires Enumerates(order, views)
    ensures var k := store.unpack(root, UnpackFlag(master));
            r.Ok? <==> && k.Ok? && store.newPackInstance(None, k.value).Ok?
                       && RunViews(views, order, ops.init, store.newPackInstance(None, k.value).value).outcome.Pass?
    ensures r.Ok? ==> && r.value.flag == UnpackFlag(master) && r.value.master == master && r.value.pk == pk
                      && r.value.changes == [] && !r.value.needUpdate
                      && store.unpack(root, UnpackFlag(master)).Ok?
                      && store.newPackInstance(None, store.unpack(root, UnpackFlag(master)).value) == Ok(r.value.pi)
                      && r.value.views.Keys == views.Keys
                      && (forall k :: k in views ==> ops.init(views[k], r.value.pi) == Ok(r.value.views[k]))
    ensures store.unpack(root, UnpackFlag(master)).Err? ==> r == Err(store.unpack(root, UnpackFlag(master)).error)
    ensures var k := store.unpack(root, UnpackFlag(master));
            k.Ok? && store.newPackInstance(None, k.value).Err? ==> r == Err(store.newPackInstance(None, k.value).error)
    ensures var k := store.unpack(root, UnpackFlag(master));
            k.Ok? && store.newPackInstance(None, k.value).Ok? && r.Err? ==>
              var pi := store.newPackInstance(None, k.value).value;
              exists j :: 0 <= j < |order| && ops.init(views[order[j]], pi).Err?
                                          && r.error == Internal(ops.init(views[order[j]], pi).error)
  {
    var flag := UnpackFlag(master);
    match store.unpack(root, flag)
    case Err(e) => Err(e)
    case Ok(pack) =>
      match store.newPackInstance(None, pack)
      case Err(e) => Err(e)
      case Ok(pi) =>
        var run := RunViews(views, order, ops.init, pi);
        if run.outcome.Fail? then Err(run.outcome.error)
        else Ok(BoardInstance(master, pk, flag, pi, run.views, [], false))
  }

  /** Installs the pack instance a change produced, or keeps the installed
      one and returns the change's error. */
  function ChangePack<P(==), V(==)>(bi: BoardInstance<P, V>, next: Result<P>): (r: Step<P, V>)
    ensures next.Err? ==> r.state == bi && r.outcome == Fail(next.error)
    ensures next.Ok? ==> r.state == bi.(pi := next.value) && r.outcome == Pass
  {
    match next
    case Err(e) => Step(bi, Fail(e))
    case Ok(pi) => Step(bi.(pi := pi), Pass)
  }

  /** The state the update's change leaves behind before the swap, and the
      pack instance it hands to the swap. */
  datatype Changed<P, V> = Changed(state: BoardInstance<P, V>, next: Result<P>)

  /** The installed pack instance as a root lookup leaves it, and the root
      it found. */
  datatype Fetched<P> = Fetched(pi: P, root: Result<Root>)

  /** The master's way to a root when none is given: save the pack, then ask
      the store for the board's latest fully synced root. The save acts on
      the installed pack instance itself, so what it did stays even when the
      save or the lookup fails. */
  function SaveAndFetch<P, K, V>(store: Store<P, K>, bi: BoardInstance<P, V>): (r: Fetched<P>)
    ensures r.pi == store.save(bi.pi).pi
    ensures store.save(bi.pi).outcome.Fail? ==> r.root == Err(store.save(bi.pi).outcome.error)
    ensures store.save(bi.pi).outcome.Pass? ==> r.root == store.lastFull(bi.pk)
  {
    var saved := store.save(bi.pi);
    match saved.outcome
    case Fail(e) => Fetched(saved.pi, Err(e))
    case Pass => Fetched(saved.pi, store.lastFull(bi.pk))
  }

  /** The root an update moves to: the given one, with the pack instance
      untouched, or for a master given none, the root found by saving and
      fetching. */
  function Target<P, K, V>(store: Store<P, K>, bi: BoardInstance<P, V>, root: Option<Root>): (r: Fetched<P>)
    ensures root.Some? ==> r == Fetched(bi.pi, Ok(root.value))
    ensures root.None? ==> r == SaveAndFetch(store, bi)
  {
    if root.Some? then Fetched(bi.pi, Ok(root.value)) else SaveAndFetch(store, bi)
  }

  /** The change an update makes: find the root, unpack it, build the next
      pack instance, update every view, and on success queue the new
      changes. A non-master given no root changes nothing. The change never
      swaps in a new pack instance itself, it hands one to the swap, but a
      save it made stays in the installed one. */
  function Change<P(==), K, V(==), Y(==)>(store: Store<P, K>, ops: ViewOps<V, P, Y>, bi: BoardInstance<P, V>,
                              root: Option<Root>, order: seq<string>): (r: Changed<P, V>)
    requires Enumerates(order, bi.views)
    requires |bi.changes| <= ChangesCapacity
    ensures r.state.master == bi.master && r.state.pk == bi.pk && r.state.flag == bi.flag
    ensures r.state.needUpdate == bi.needUpdate && r.state.views.Keys == bi.views.Keys
    ensures root.None? && !bi.master ==> r == Changed(bi, Ok(bi.pi))
    ensures root.Some? || bi.master ==> r.state.pi == Target(store, bi, root).pi
    ensures r.next.Err? ==> r.state.changes == bi.changes
    ensures r.next.Err? && !r.next.error.Internal? ==> r.state == bi.(pi := Target(store, bi, root).pi)
    ensures r.next.Ok? && (root.Some? || bi.master) ==>
      && |r.state.changes| > 0 && r.state.changes == Push(bi.changes, store.changes(r.next.value))
      && (forall k :: k in bi.views ==> ops.update(bi.views[k], r.next.value) == Ok(r.state.views[k]))
    ensures r.next.Ok? && (root.Some? || bi.master) ==>
      var t := Target(store, bi, root);
      && t.root.Ok?
      && store.unpack(t.root.value, bi.flag).Ok?
      && store.newPackInstance(Some(t.pi), store.unpack(t.root.value, bi.flag).value) == r.next
    ensures (root.Some? || bi.master) && Target(store, bi, root).root.Err? ==>
      var t := Target(store, bi, root);
      r == Changed(bi.(pi := t.pi), Err(t.root.error))
    ensures (root.Some? || bi.master) && Target(store, bi, root).root.Ok? ==>
      var t := Target(store, bi, root);
      var k := store.unpack(t.root.value, bi.flag);
      && (k.Err? ==> r == Changed(bi.(pi := t.pi), Err(k.error)))
      && (k.Ok? && store.newPackInstance(Some(t.pi), k.value).Err? ==>
            r == Changed(bi.(pi := t.pi), Err(store.newPackInstance(Some(t.pi), k.value).error)))
  {
    if root.None? && !bi.master then Changed(bi, Ok(bi.pi))
    else
      var t := Target(store, bi, root);
      MoveTo(store, ops, bi.(pi := t.pi), t.root, order)
  }

  /** The change from the root lookup on, against `base`, the instance as
      the lookup left it: unpack the root, build the next pack instance
      against the installed one, update every view, and on success queue
      the new changes. Only the views and the queue may change. */
  function MoveTo<P(==), K, V(==), Y(==)>(store: Store<P, K>, ops: ViewOps<V, P, Y>, base: BoardInstance<P, V>,
                              target: Result<Root>, order: seq<string>): (r: Changed<P, V>)
    requires Enumerates(order, base.views)
    requires |base.changes| <= ChangesCapacity
    ensures r.state.(views := base.views, changes := base.changes) == base
    ensures r.state.views.Keys == base.views.Keys
    ensures r.next.Err? ==> r.state.changes == base.changes
    ensures r.next.Err? && !r.next.error.Internal? ==> r.state == base
    ensures target.Err? ==> r == Changed(base, Err(target.error))
    ensures target.Ok? ==>
      var k := store.unpack(target.value, base.flag);
      && (k.Err? ==> r == Changed(base, Err(k.error)))
      && (k.Ok? && store.newPackInstance(Some(base.pi), k.value).Err? ==>
            r == Changed(base, Err(store.newPackInstance(Some(base.pi), k.value).error)))
    ensures r.next.Ok? ==>
      && target.Ok? && store.unpack(target.value, base.flag).Ok?
      && store.newPackInstance(Some(base.pi), store.unpack(target.value, base.flag).value) == r.next
      && |r.state.changes| > 0 && r.state.changes == Push(base.changes, store.changes(r.next.value))
      && (forall k :: k in base.views ==> ops.update(base.views[k], r.next.value) == Ok(r.state.views[k]))
  {
    match target
    case Err(e) => Changed(base, Err(e))
    case Ok(rt) =>
      match store.unpack(rt, base.flag)
      case Err(e) => Changed(base, Err(e))
      case Ok(pack) =>
        match store.newPackInstance(Some(base.pi), pack)
        case Err(e) => Changed(base, Err(e))
        case Ok(next) =>
          var run := RunViews(base.views, order, ops.update, next);
          if run.outcome.Fail? then Changed(base.(views := run.views), Err(run.outcome.error))
          else Changed(base.(views := run.views, changes := Push(base.changes, store.changes(next))), Ok(next))
  }

  /** Updates the instance to `root`, or, with no root, to the master's
      freshly saved and synced root. A successful update installs the pack
      instance built from that root against the installed one. Every
      failure leaves the queue as it was and the installed pack instance as
      the master's save left it (untouched when a root was given); the
      store's errors come back unchanged and change nothing else, and a
      view failure keeps the views updated before it. */
  function Update<P(==), K, V(==), Y(==)>(store: Store<P, K>, ops: ViewOps<V, P, Y>, bi: BoardInstance<P, V>,
                              root: Option<Root>, order: seq<string>): (r: Step<P, V>)
    requires Enumerates(order, bi.views)
    requires |bi.changes| <= ChangesCapacity
    ensures |r.state.changes| <= ChangesCapacity
    ensures r.state.master == bi.master && r.state.pk == bi.pk && r.state.flag == bi.flag
    ensures r.state.needUpdate == bi.needUpdate && r.state.views.Keys == bi.views.Keys
    ensures root.None? && !bi.master ==> r == Step(bi, Pass)
    ensures r.outcome.Fail? ==> r.state.pi == Target(store, bi, root).pi && r.state.changes == bi.changes
    ensures r.outcome.Fail? && !r.outcome.error.Internal? ==> r.state == bi.(pi := Target(store, bi, root).pi)
    ensures (root.Some? || bi.master) && r.outcome.Pass? ==>
      var t := Target(store, bi, root);
      && t.root.Ok?
      && store.unpack(t.root.value, bi.flag).Ok?
      && store.newPackInstance(Some(t.pi), store.unpack(t.root.value, bi.flag).value) == Ok(r.state.pi)
    ensures r.outcome.Pass? && (root.Some? || bi.master) ==>
      && r.state.changes == Push(bi.changes, store.changes(r.state.pi))
      && (forall k :: k in bi.views ==> ops.update(bi.views[k], r.state.pi) == Ok(r.state.views[k]))
    ensures (root.Some? || bi.master) && Target(store, bi, root).root.Err? ==>
      var t := Target(store, bi, root);
      r == Step(bi.(pi := t.pi), Fail(t.root.error))
    ensures (root.Some? || bi.master) && Target(store, bi, root).root.Ok? ==>
      var t := Target(store, bi, root);
      var k := store.unpack(t.root.value, bi.flag);
      && (k.Err? ==> r == Step(bi.(pi := t.pi), Fail(k.error)))
      && (k.Ok? && store.newPackInstance(Some(t.pi), k.value).Err? ==>
            r == Step(bi.(pi := t.pi), Fail(store.newPackInstance(Some(t.pi), k.value).error)))
  {
    var c := Change(store, ops, bi, root, order);
    ChangePack(c.state, c.next)
  }

  /** A view that fails an update makes the update fail with `Internal`
      before any notification and without the swap, while the views updated
      before it keep their new state. */
  lemma ViewFailureIsNotRolledBack<P, K, V, Y>(store: Store<P, K>, ops: ViewOps<V, P, Y>, bi: BoardInstance<P, V>,
                                               root: Root, order: seq<string>)
    requires Enumerates(order, bi.views)
    requires |bi.changes| <= ChangesCapacity
    requires store.unpack(root, bi.flag).Ok?
    requires store.newPackInstance(Some(bi.pi), store.unpack(root, bi.flag).value).Ok?
    ensures var next := store.newPackInstance(Some(bi.pi), store.unpack(root, bi.flag).value).value;
            var r := Update(store, ops, bi, Some(root), order);
            r.outcome.Fail? ==>
              && r.outcome.error.Internal?
              && r.state.pi == bi.pi && r.state.changes == bi.changes
              && exists j :: 0 <= j < |order| && FailedAt(bi.views, order, ops.update, next, ViewsRun(r.state.views, r.outcome), j)
  {
  }

  // Queries and sequence numbers.

  /** Answers a query by handing it to the named view; an unknown view id is
      `NotFound`. */
  function Get<P(==), V(==), Y(==)>(ops: ViewOps<V, P, Y>, bi: BoardInstance<P, V>, viewID: string, cmdID: string,
                        args: seq<string>): (r: Result<Y>)
    ensures viewID !in bi.views ==> r == Err(NotFound)
    ensures viewID in bi.views ==> r == ops.get(bi.views[viewID], cmdID, args)
  {
    if viewID !in bi.views then Err(NotFound) else ops.get(bi.views[viewID], cmdID, args)
  }

  /** The sequence number of the installed pack instance's root. */
  function GetSeq<P, K, V>(store: Store<P, K>, bi: BoardInstance<P, V>): (n: nat)
    ensures n == store.seqOf(bi.pi)
  {
    store.seqOf(bi.pi)
  }

  /** How a wait for a sequence number starts: at once when it is reached,
      otherwise by polling (the polling loop is not part of this model). */
  datatype Wait = Reached | Polling

  function WaitSeq<P, K, V>(store: Store<P, K>, bi: BoardInstance<P, V>, goal: nat): (w: Wait)
    ensures w == Reached <==> store.seqOf(bi.pi) >= goal
  {
    if GetSeq(store, bi) >= goal then Reached else Polling
  }

  /** The store builds the pack instance for `root` with `root`'s own
      sequence number. */
  predicate CarriesSeq<P, K, V>(store: Store<P, K>, bi: BoardInstance<P, V>, root: Root)
  {
    var k := store.unpack(root, bi.flag);
    k.Ok? && store.newPackInstance(Some(bi.pi), k.value).Ok? ==>
      store.seqOf(store.newPackInstance(Some(bi.pi), k.value).value) == root.seqNo
  }

  /** After a successful update to `root`, a wait returns at once exactly
      for the goals `root`'s sequence number has reached, and the last
      queued notification is that update's changes. */
  lemma WaitAfterUpdate<P, K, V, Y>(store: Store<P, K>, ops: ViewOps<V, P, Y>, bi: BoardInstance<P, V>,
                                    root: Root, order: seq<string>, goal: nat)
    requires Enumerates(order, bi.views)
    requires |bi.changes| <= ChangesCapacity
    requires CarriesSeq(store, bi, root)
    requires Update(store, ops, bi, Some(root), order).outcome.Pass?
    ensures var r := Update(store, ops, bi, Some(root), order).state;
            && GetSeq(store, r) == root.seqNo
            && (WaitSeq(store, r, goal) == Reached <==> root.seqNo >= goal)
            && r.changes[|r.changes| - 1] == store.changes(r.pi)
  {
  }

  /** After a successful update every view answers queries from its updated
      state, and an unknown view id is still unknown. */
  lemma GetAfterUpdate<P, K, V, Y>(store: Store<P, K>, ops: ViewOps<V, P, Y>, bi: BoardInstance<P, V>,
                                   root: Root, order: seq<string>, viewID: string, cmdID: string, args: seq<string>)
    requires Enumerates(order, bi.views)
    requires |bi.changes| <= ChangesCapacity
    requires Update(store, ops, bi, Some(root), order).outcome.Pass?
    ensures var r := Update(store, ops, bi, Some(root), order).state;
            && (viewID !in bi.views ==> Get(ops, r, viewID, cmdID, args) == Err(NotFound))
            && (viewID in bi.views ==>
                  && ops.update(bi.views[viewID], r.pi).Ok?
                  && Get(ops, r, viewID, cmdID, args) == ops.get(ops.update(bi.views[viewID], r.pi).value, cmdID, args))
  {
  }

  /** Handing the swap the installed pack instance is no change at all, and
      of two swaps only the second one's pack instance stays. */
  lemma SwapLaws<P, V>(bi: BoardInstance<P, V>, p: P, q: P)
    ensures ChangePack(bi, Ok(bi.pi)) == Step(bi, Pass)
    ensures ChangePack(ChangePack(bi, Ok(p)).state, Ok(q)) == ChangePack(bi, Ok(q))
  {
  }

  // The update-needed flag.

  /** Whether an update is needed: an edit succeeded since the flag was last
      lowered. */
  function UpdateNeeded<P, V>(bi: BoardInstance<P, V>): (b: bool)
    ensures b <==> bi.needUpdate
  {
    bi.needUpdate
  }

  /** Raises the update-needed flag and touches nothing else. */
  function SetUpdateNeeded<P(==), V(==)>(bi: BoardInstance<P, V>): (r: BoardInstance<P, V>)
    ensures UpdateNeeded(r)
    ensures r.(needUpdate := bi.needUpdate) == bi
  {
    bi.(needUpdate := true)
  }

  /** Lowers the update-needed flag and touches nothing else. */
  function ClearUpdateNeeded<P(==), V(==)>(bi: BoardInstance<P, V>): (r: BoardInstance<P, V>)
    ensures !UpdateNeeded(r)
    ensures r.(needUpdate := bi.needUpdate) == bi
  {
    bi.(needUpdate := false)
  }

  /** What an edit leaves behind: the edited pack instance and the edit's
      error. An edit that fails may already have changed the pack. */
  datatype Edited<P> = Edited(pi: P, outcome: Outcome)

  /** Runs an edit on the installed pack instance and, only when it
      succeeds, raises the update-needed flag; the edit's error is returned.
      Whatever the edit did to the pack stays, even when it fails. */
  function PackEdit<P(==), V(==)>(bi: BoardInstance<P, V>, action: P -> Edited<P>): (r: Step<P, V>)
    ensures r.outcome == action(bi.pi).outcome
    ensures r.state.pi == action(bi.pi).pi
    ensures UpdateNeeded(r.state) <==> UpdateNeeded(bi) || r.outcome.Pass?
    ensures r.state.(pi := bi.pi, needUpdate := bi.needUpdate) == bi
  {
    var edited := action(bi.pi);
    match edited.outcome
    case Fail(e) => Step(bi.(pi := edited.pi), Fail(e))
    case Pass => Step(SetUpdateNeeded(bi.(pi := edited.pi)), Pass)
  }

  /** A master's next update without a root saves the edited pack: the
      save sees the edit, a failed save's error comes back unchanged with
      whatever the save did kept, and the update leaves the raised flag
      raised. */
  lemma EditIsSavedByNextUpdate<P, K, V, Y>(store: Store<P, K>, ops: ViewOps<V, P, Y>, bi: BoardInstance<P, V>,
                                            action: P -> Edited<P>, order: seq<string>)
    requires bi.master
    requires Enumerates(order, bi.views)
    requires |bi.changes| <= ChangesCapacity
    requires action(bi.pi).outcome.Pass?
    ensures var edited := PackEdit(bi, action).state;
            var r := Update(store, ops, edited, None, order);
            var saved := store.save(action(bi.pi).pi);
            && UpdateNeeded(r.state)
            && (saved.outcome.Fail? ==> r == Step(edited.(pi := saved.pi), Fail(saved.outcome.error)))
  {
  }

  /** A master's root-less update whose save succeeds but whose root
      lookup fails returns the lookup's error and keeps the saved pack. */
  lemma SaveSurvivesFailedLookup<P, K, V, Y>(store: Store<P, K>, ops: ViewOps<V, P, Y>, bi: BoardInstance<P, V>,
                                             order: seq<string>)
    requires bi.master
    requires Enumerates(order, bi.views)
    requires |bi.changes| <= ChangesCapacity
    requires store.save(bi.pi).outcome.Pass? && store.lastFull(bi.pk).Err?
    ensures Update(store, ops, bi, None, order)
            == Step(bi.(pi := store.save(bi.pi).pi), Fail(store.lastFull(bi.pk).error))
  {
  }
}

=== FILE: boo.dfy ===
/** Error kinds of the board store (the repository's `boo` package) and the
    result shapes every operation of the model returns. */
module Boo {

  /** The error taxonomy. `Foreign` stands for an opaque failure handed back
      unchanged by the object store or by r0 decoding. */
  datatype Error =
    | AlreadyExists
    | NotFound
    | NotAllowed
    | Internal(cause: Error)
    | Foreign(code: nat)

  /** A value that may be nil. */
  datatype Option<+T> = None | Some(value: T)

  /** A value or an error, as Go's `(T, error)` pair. */
  datatype Result<+T> = Ok(value: T) | Err(error: Error)

  /** A bare `error` return: nil or an error. */
  datatype Outcome = Pass | Fail(error: Error)
}

=== FILE: content_view.dfy ===
/** The content view: an index of the board's threads and posts in arrival
    order, a map from content hash to its representation, and the vote
    aggregates, built by a full scan and kept current by folding diffs. */
module ContentViews {
  import opened Boo
  import opened R0
  import opened Reps

  /** The representation recorded for a content item. The r0 conversion is
      not part of this model, so the representation keeps the item itself. */
  datatype ContentRep = ContentRep(hash: Hash, body: Body)

  function ToRep(c: Content): ContentRep
  {
    ContentRep(c.hash, c.body)
  }

  /** The board hash, its thread hashes in order, and for each thread hash
      the hashes of its posts in order. */
  datatype IndexPage = IndexPage(board: Hash, threads: seq<Hash>, posts: map<Hash, seq<Hash>>)

  function NewIndexPage(): (p: IndexPage)
    ensures p.threads == [] && p.posts == map[]
  {
    IndexPage("", [], map[])
  }

  datatype ContentView = ContentView(pk: PubKey, index: IndexPage,
                                     content: map<Hash, ContentRep>, votes: map<Hash, VotesRep>)

  /** The post list recorded for thread `t`, empty when there is none. */
  function PostsOf(i: IndexPage, t: Hash): seq<Hash>
  {
    if t in i.posts then i.posts[t] else []
  }

  // Vote items.

  /** The hash a vote's target must already be known under: the thread of a
      thread vote, the post of a post vote. Other items are not votes here. */
  function VoteTarget(c: Content): Option<Hash>
  {
    match c.body
    case ThreadVoteBody(t, _, _) => Some(t)
    case PostVoteBody(p, _, _) => Some(p)
    case _ => None
  }

  /** The key a counted vote is filed under in the votes map. The source
      computes it from the vote item's own header, not from its target, so
      every vote item gets an aggregate of its own. */
  function VoteKey(c: Content): Hash
  {
    c.hash
  }

  /** The (voter, mode) pair a vote item folds in. */
  function VoteOf(c: Content): Vote
    requires VoteTarget(c).Some?
  {
    Vote(c.body.creator, c.body.mode)
  }

  /** A vote item that will be counted: a thread or post vote whose target is
      already in the content map. */
  predicate Counted(v: ContentView, c: Content)
  {
    VoteTarget(c).Some? && VoteTarget(c).value in v.content
  }

  /** Every aggregate points at its own key and is well formed. */
  predicate VotesConsistent(v: ContentView)
  {
    forall k :: k in v.votes ==> v.votes[k].ref == k && WellFormed(v.votes[k])
  }

  /** The aggregate a vote under `key` is folded into: the one already
      there, or a fresh one filled for `key`. */
  function StartRep(v: ContentView, key: Hash): (rep: VotesRep)
    ensures key in v.votes ==> rep == v.votes[key]
    ensures key !in v.votes ==> rep.ref == key && rep.votes == map[] && rep.upCount == 0 && rep.downCount == 0
  {
    if key in v.votes then v.votes[key] else Fill(NewVotesRep(), key)
  }

  /** Folds a vote into the aggregate under `key`, filling a fresh one first
      when there is none. */
  function FoldVote(v: ContentView, key: Hash, vote: Vote): (r: ContentView)
    ensures r.pk == v.pk && r.index == v.index && r.content == v.content
    ensures r.votes.Keys == v.votes.Keys + {key}
    ensures forall k :: k in v.votes && k != key ==> r.votes[k] == v.votes[k]
    ensures key !in v.votes ==> r.votes[key].ref == key && r.votes[key].votes.Keys <= {vote.creator}
    ensures key in v.votes ==>
      && r.votes[key].ref == v.votes[key].ref
      && (forall c :: c in v.votes[key].votes && c != vote.creator ==>
            c in r.votes[key].votes && r.votes[key].votes[c] == v.votes[key].votes[c])
    ensures vote.mode == 0 <==> vote.creator !in r.votes[key].votes
    ensures vote.mode != 0 ==> r.votes[key].votes[vote.creator] == vote
  {
    v.(votes := v.votes[key := Add(StartRep(v, key), vote)])
  }

  /** Folds a vote item into the votes map. Items that are not thread or post
      votes, and votes whose target is unknown, are dropped; the result is
      never an error. */
  function ProcessVote(v: ContentView, c: Content): (r: Result<ContentView>)
    ensures r.Ok?
    ensures r.value.pk == v.pk && r.value.index == v.index && r.value.content == v.content
    ensures !Counted(v, c) ==> r.value == v
    ensures Counted(v, c) ==>
      && r.value.votes.Keys == v.votes.Keys + {VoteKey(c)}
      && (forall k :: k in v.votes && k != VoteKey(c) ==> r.value.votes[k] == v.votes[k])
      && (VoteOf(c).mode == 0 <==> VoteOf(c).creator !in r.value.votes[VoteKey(c)].votes)
      && (VoteOf(c).mode != 0 ==> r.value.votes[VoteKey(c)].votes[VoteOf(c).creator] == VoteOf(c))
      && (VoteKey(c) in v.votes ==>
            && r.value.votes[VoteKey(c)].ref == v.votes[VoteKey(c)].ref
            && (forall p :: p in v.votes[VoteKey(c)].votes && p != VoteOf(c).creator ==>
                  p in r.value.votes[VoteKey(c)].votes && r.value.votes[VoteKey(c)].votes[p] == v.votes[VoteKey(c)].votes[p]))
      && (VoteKey(c) !in v.votes ==>
            r.value.votes[VoteKey(c)].ref == VoteKey(c) && r.value.votes[VoteKey(c)].votes.Keys <= {VoteOf(c).creator})
  {
    match c.body
    case ThreadVoteBody(ofThread, creator, mode) =>
      if ofThread !in v.content then Ok(v) else Ok(FoldVote(v, VoteKey(c), Vote(creator, mode)))
    case PostVoteBody(ofPost, creator, mode) =>
      if ofPost !in v.content then Ok(v) else Ok(FoldVote(v, VoteKey(c), Vote(creator, mode)))
    case _ => Ok(v)
  }

  /** Folding a vote item keeps every aggregate well formed. */
  lemma ProcessVoteKeepsConsistent(v: ContentView, c: Content)
    requires VotesConsistent(v)
    ensures VotesConsistent(ProcessVote(v, c).value)
  {
    if Counted(v, c) {
      var key := VoteKey(c);
      if key !in v.votes {
        FillIsWellFormed(key);
      }
      AddKeepsWellFormed(StartRep(v, key), VoteOf(c));
    }
  }

  // The full scan.

  /** The hashes of a thread page's posts, in scan order. */
  function PostHashes(posts: seq<Content>): (hs: seq<Hash>)
    ensures |hs| == |posts|
    ensures forall i :: 0 <= i < |posts| ==> hs[i] == posts[i].hash
  {
    if |posts| == 0 then [] else PostHashes(posts[..|posts| - 1]) + [posts[|posts| - 1].hash]
  }

  /** Records the representation of every post, in scan order. */
  function AddPosts(content: map<Hash, ContentRep>, posts: seq<Content>): (r: map<Hash, ContentRep>)
    ensures content.Keys <= r.Keys
    ensures forall i :: 0 <= i < |posts| ==> posts[i].hash in r
  {
    if |posts| == 0 then content
    else AddPosts(content, posts[..|posts| - 1])[posts[|posts| - 1].hash := ToRep(posts[|posts| - 1])]
  }

  /** A thread page whose thread and whose posts could both be read. */
  predicate PageRead(page: ThreadPage)
  {
    page.thread.Ok? && page.posts.Ok?
  }

  /** Why a thread page could not be read: the thread read is tried first. */
  function PageError(page: ThreadPage): Error
    requires !PageRead(page)
  {
    if page.thread.Err? then page.thread.error else page.posts.error
  }

  /** Every thread page of the scan could be read. */
  predicate AllThreadsRead(pages: seq<ThreadPage>)
  {
    forall i :: 0 <= i < |pages| ==> PageRead(pages[i])
  }

  /** The thread hashes of a fully read scan, in snapshot order. */
  function ThreadHashesOf(pages: seq<ThreadPage>): (hs: seq<Hash>)
    requires AllThreadsRead(pages)
    ensures |hs| == |pages|
    ensures forall i :: 0 <= i < |pages| ==> hs[i] == pages[i].thread.value.hash
  {
    if |pages| == 0 then [] else ThreadHashesOf(pages[..|pages| - 1]) + [pages[|pages| - 1].thread.value.hash]
  }

  /** Position `i` holds the last occurrence of its hash in `hs`. */
  predicate LastOccurrence(hs: seq<Hash>, i: int)
  {
    0 <= i < |hs| && hs[i] !in hs[i + 1..]
  }

  /** Records one thread page: its hash at the end of the thread list, its
      post hashes as that thread's post list, and the representations of the
      thread and its posts. A thread or a post range that cannot be read
      fails the scan. */
  function AddThreadPage(v: ContentView, page: ThreadPage): (r: Result<ContentView>)
    ensures r.Ok? <==> PageRead(page)
    ensures r.Err? ==> r.error == PageError(page)
    ensures r.Ok? ==>
      var t := page.thread.value.hash;
      && r.value.pk == v.pk && r.value.index.board == v.index.board && r.value.votes == v.votes
      && r.value.index.threads == v.index.threads + [t]
      && r.value.index.posts.Keys == v.index.posts.Keys + {t}
      && PostsOf(r.value.index, t) == PostHashes(page.posts.value)
      && (forall u :: u != t ==> PostsOf(r.value.index, u) == PostsOf(v.index, u))
      && v.content.Keys + {t} <= r.value.content.Keys
      && (forall j :: 0 <= j < |page.posts.value| ==> page.posts.value[j].hash in r.value.content)
  {
    match page.thread
    case Err(e) => Err(e)
    case Ok(t) =>
      match page.posts
      case Err(e) => Err(e)
      case Ok(posts) =>
        Ok(v.(index := v.index.(threads := v.index.threads + [t.hash],
                                posts := v.index.posts[t.hash := PostHashes(posts)]),
              content := AddPosts(v.content[t.hash := ToRep(t)], posts)))
  }

  /** Scans the thread pages in order. The scan fails exactly when some
      thread page cannot be read, with the first such page's error; otherwise
      the thread list gains every thread hash in snapshot order. */
  function ScanThreads(v: ContentView, pages: seq<ThreadPage>): (r: Result<ContentView>)
    ensures r.Ok? <==> AllThreadsRead(pages)
    ensures r.Err? ==> exists i :: 0 <= i < |pages| && !PageRead(pages[i]) && r.error == PageError(pages[i])
                                   && AllThreadsRead(pages[..i])
    ensures r.Ok? ==> r.value.pk == v.pk && r.value.index.board == v.index.board && r.value.votes == v.votes
    ensures r.Ok? ==> r.value.index.threads == v.index.threads + ThreadHashesOf(pages)
  {
    if |pages| == 0 then Ok(v)
    else
      var prefix := pages[..|pages| - 1];
      match ScanThreads(v, prefix)
      case Err(e) =>
        assert forall i :: 0 <= i < |prefix| ==> prefix[..i] == pages[..i];
        Err(e)
      case Ok(v') =>
        assert prefix == pages[..|pages| - 1];
        AddThreadPage(v', pages[|pages| - 1])
  }

  /** A completed scan gives every scanned thread a post list and leaves
      the post lists of other threads untouched. */
  lemma {:induction false} ScanThreadsPostKeys(v: ContentView, pages: seq<ThreadPage>)
    requires AllThreadsRead(pages)
    ensures var r := ScanThreads(v, pages).value;
            && r.index.posts.Keys == v.index.posts.Keys + (set h | h in ThreadHashesOf(pages))
            && (forall t :: t in v.index.posts && t !in ThreadHashesOf(pages) ==> r.index.posts[t] == v.index.posts[t])
  {
    if |pages| > 0 {
      var prefix := pages[..|pages| - 1];
      assert AllThreadsRead(prefix);
      ScanThreadsPostKeys(v, prefix);
      assert ThreadHashesOf(pages) == ThreadHashesOf(prefix) + [pages[|pages| - 1].thread.value.hash];
    }
  }

  /** After a completed scan, the post list of a scanned thread holds the
      post hashes of the page scanned last under that thread hash, in scan
      order. */
  lemma {:induction false} ScanThreadsPosts(v: ContentView, pages: seq<ThreadPage>)
    requires AllThreadsRead(pages)
    ensures forall i :: LastOccurrence(ThreadHashesOf(pages), i) ==>
              && ThreadHashesOf(pages)[i] in ScanThreads(v, pages).value.index.posts
              && ScanThreads(v, pages).value.index.posts[ThreadHashesOf(pages)[i]] == PostHashes(pages[i].posts.value)
  {
    if |pages| > 0 {
      var prefix, last := pages[..|pages| - 1], pages[|pages| - 1];
      assert AllThreadsRead(prefix);
      ScanThreadsPosts(v, prefix);
      var w := ScanThreads(v, prefix).value;
      assert ScanThreads(v, pages).value == AddThreadPage(w, last).value;
      LastPageOwnsItsPosts(pages, w.index.posts, ScanThreads(v, pages).value.index.posts);
    }
  }

  /** One step of `ScanThreadsPosts`: recording the last page under its
      thread hash keeps each earlier thread's last-scanned post list. */
  lemma LastPageOwnsItsPosts(pages: seq<ThreadPage>, before: map<Hash, seq<Hash>>, after: map<Hash, seq<Hash>>)
    requires |pages| > 0 && AllThreadsRead(pages)
    requires after == before[pages[|pages| - 1].thread.value.hash := PostHashes(pages[|pages| - 1].posts.value)]
    requires var prefix := pages[..|pages| - 1];
             AllThreadsRead(prefix) &&
             forall i :: LastOccurrence(ThreadHashesOf(prefix), i) ==>
               ThreadHashesOf(prefix)[i] in before && before[ThreadHashesOf(prefix)[i]] == PostHashes(prefix[i].posts.value)
    ensures forall i :: LastOccurrence(ThreadHashesOf(pages), i) ==>
              ThreadHashesOf(pages)[i] in after && after[ThreadHashesOf(pages)[i]] == PostHashes(pages[i].posts.value)
  {
    var prefix, last := pages[..|pages| - 1], pages[|pages| - 1];
    var t := last.thread.value.hash;
    var hs, hsPre := ThreadHashesOf(pages), ThreadHashesOf(prefix);
    assert hs == hsPre + [t];
    forall i | LastOccurrence(hs, i) && i < |pages| - 1
      ensures LastOccurrence(hsPre, i) && hs[i] != t && pages[i] == prefix[i]
    {
      assert hs[i + 1..] == hsPre[i + 1..] + [t];
    }
  }

  /** A completed scan records the representation of every thread and post
      it read, and keeps what was recorded before. */
  lemma {:induction false} ScanThreadsContent(v: ContentView, pages: seq<ThreadPage>)
    requires AllThreadsRead(pages)
    ensures var r := ScanThreads(v, pages).value;
            && v.content.Keys <= r.content.Keys
            && (forall i :: 0 <= i < |pages| ==> pages[i].thread.value.hash in r.content)
            && (forall i, j :: 0 <= i < |pages| && 0 <= j < |pages[i].posts.value| ==> pages[i].posts.value[j].hash in r.content)
  {
    if |pages| > 0 {
      var prefix, last := pages[..|pages| - 1], pages[|pages| - 1];
      assert AllThreadsRead(prefix);
      ScanThreadsContent(v, prefix);
      var w := ScanThreads(v, prefix).value;
      var r := AddThreadPage(w, last).value;
      assert ScanThreads(v, pages).value == r;
      forall i, j | 0 <= i < |pages| && 0 <= j < |pages[i].posts.value|
        ensures pages[i].thread.value.hash in r.content && pages[i].posts.value[j].hash in r.content
      {
        if i < |prefix| {
          assert prefix[i] == pages[i];
        }
      }
      forall i | 0 <= i < |pages| ensures pages[i].thread.value.hash in r.content {
        if i < |prefix| {
          assert prefix[i] == pages[i];
        }
      }
    }
  }

  /** Folds every submission into the votes map in scan order. */
  function ScanVotes(v: ContentView, subs: seq<Content>): (r: ContentView)
    ensures r.pk == v.pk && r.index == v.index && r.content == v.content
    ensures v.votes.Keys <= r.votes.Keys
  {
    if |subs| == 0 then v else ProcessVote(ScanVotes(v, subs[..|subs| - 1]), subs[|subs| - 1]).value
  }

  /** The vote items of `subs` that are counted against `v`'s content map, by
      the key they are filed under. */
  function CountedKeys(v: ContentView, subs: seq<Content>): set<Hash>
  {
    set c | c in subs && Counted(v, c) :: VoteKey(c)
  }

  /** Scanning submissions creates an aggregate for exactly the counted
      votes: thread and post votes whose target is known. Votes for unknown
      targets, and every other item, leave no trace. */
  lemma {:induction false} ScanVotesKeys(v: ContentView, subs: seq<Content>)
    ensures ScanVotes(v, subs).votes.Keys == v.votes.Keys + CountedKeys(v, subs)
  {
    if |subs| > 0 {
      var prefix, last := subs[..|subs| - 1], subs[|subs| - 1];
      ScanVotesKeys(v, prefix);
      assert subs == prefix + [last];
      assert Counted(ScanVotes(v, prefix), last) == Counted(v, last);
      assert CountedKeys(v, subs) == CountedKeys(v, prefix) + (if Counted(v, last) then {VoteKey(last)} else {}) by {
        forall k | k in CountedKeys(v, subs)
          ensures k in CountedKeys(v, prefix) + (if Counted(v, last) then {VoteKey(last)} else {})
        {
          var c :| c in subs && Counted(v, c) && VoteKey(c) == k;
          if c != last {
            assert c in prefix;
          }
        }
      }
    }
  }

  /** The votes of the submissions counted against `v` and filed under
      `key`, in scan order. */
  function VotesFor(v: ContentView, subs: seq<Content>, key: Hash): seq<Vote>
  {
    if |subs| == 0 then []
    else
      var last := subs[|subs| - 1];
      VotesFor(v, subs[..|subs| - 1], key) + (if Counted(v, last) && VoteKey(last) == key then [VoteOf(last)] else [])
  }

  /** Counting depends only on the content map. */
  lemma {:induction false} VotesForFollowsContent(v: ContentView, w: ContentView, subs: seq<Content>, key: Hash)
    requires v.content == w.content
    ensures VotesFor(v, subs, key) == VotesFor(w, subs, key)
  {
    if |subs| > 0 {
      VotesForFollowsContent(v, w, subs[..|subs| - 1], key);
    }
  }

  /** Scanning submissions folds, into the aggregate under `key`, exactly
      the counted votes filed under `key`, in scan order; the aggregate
      exists afterwards exactly when it did before or such a vote exists. */
  lemma {:induction false} ScanVotesFold(v: ContentView, subs: seq<Content>, key: Hash)
    ensures key in ScanVotes(v, subs).votes <==> key in v.votes || VotesFor(v, subs, key) != []
    ensures key in ScanVotes(v, subs).votes ==>
              ScanVotes(v, subs).votes[key] == FoldVotes(StartRep(v, key), VotesFor(v, subs, key))
  {
    if |subs| > 0 {
      var prefix, last := subs[..|subs| - 1], subs[|subs| - 1];
      var w := ScanVotes(v, prefix);
      ScanVotesFold(v, prefix, key);
      assert ScanVotes(v, subs) == ProcessVote(w, last).value;
      if Counted(v, last) && VoteKey(last) == key {
        assert ScanVotes(v, subs) == FoldVote(w, key, VoteOf(last));
        assert StartRep(w, key) == FoldVotes(StartRep(v, key), VotesFor(v, prefix, key));
        FoldVotesSnoc(StartRep(v, key), VotesFor(v, prefix, key), VoteOf(last));
      } else {
        assert Counted(w, last) == Counted(v, last);
        assert key in ScanVotes(v, subs).votes ==> key in w.votes && ScanVotes(v, subs).votes[key] == w.votes[key];
        assert VotesFor(v, subs, key) == VotesFor(v, prefix, key) + [];
        assert VotesFor(v, subs, key) == VotesFor(v, prefix, key);
      }
    }
  }

  /** Scanning submissions keeps every vote aggregate well formed. */
  lemma {:induction false} ScanVotesKeepsConsistent(v: ContentView, subs: seq<Content>)
    requires VotesConsistent(v)
    ensures VotesConsistent(ScanVotes(v, subs))
  {
    if |subs| > 0 {
      ScanVotesKeepsConsistent(v, subs[..|subs| - 1]);
      ProcessVoteKeepsConsistent(ScanVotes(v, subs[..|subs| - 1]), subs[|subs| - 1]);
    }
  }

  /** Builds the view from a full scan of a snapshot whose root is signed by
      `pk`: the board, every thread in order with its posts in order, then
      every vote among the users' submissions. Fails when the pages, the
      board, any thread page or any profile cannot be read. */
  function Init(pk: PubKey, pages: Result<Pages>): (r: Result<ContentView>)
    ensures r.Ok? <==> && pages.Ok? && pages.value.board.Ok? && AllThreadsRead(pages.value.threads)
                       && AllProfilesRead(pages.value.users)
    ensures pages.Err? ==> r == Err(pages.error)
    ensures pages.Ok? && pages.value.board.Err? ==> r == Err(pages.value.board.error)
    ensures r.Ok? ==>
      var p := pages.value;
      && r.value.pk == pk
      && r.value.index.board == p.board.value.hash
      && r.value.index.threads == ThreadHashesOf(p.threads)
      && r.value.index.posts.Keys == (set h | h in r.value.index.threads)
      && (forall i :: LastOccurrence(r.value.index.threads, i) ==>
            r.value.index.posts[r.value.index.threads[i]] == PostHashes(p.threads[i].posts.value))
      && p.board.value.hash in r.value.content
      && (forall i :: 0 <= i < |p.threads| ==> p.threads[i].thread.value.hash in r.value.content)
      && r.value.votes.Keys == CountedKeys(r.value, Submissions(p.users).value)
      && (forall k :: k in r.value.votes ==>
            r.value.votes[k] == FoldVotes(Fill(NewVotesRep(), k), VotesFor(r.value, Submissions(p.users).value, k)))
      && VotesConsistent(r.value)
  {
    match pages
    case Err(e) => Err(e)
    case Ok(p) =>
      match p.board
      case Err(e) => Err(e)
      case Ok(b) =>
        match ScanThreads(WithBoard(pk, b), p.threads)
        case Err(e) => Err(e)
        case Ok(v) =>
          match Submissions(p.users)
          case Err(e) => Err(e)
          case Ok(subs) =>
            FullScan(pk, b, p.threads, subs);
            FullScanVotes(pk, b, p.threads, subs);
            Ok(ScanVotes(v, subs))
  }

  /** The view a full scan starts from: just the board. */
  function WithBoard(pk: PubKey, b: Content): ContentView
  {
    ContentView(pk, NewIndexPage().(board := b.hash), map[b.hash := ToRep(b)], map[])
  }

  /** What a completed full scan yields for the index and the content map:
      the facts of the thread part, which the vote scan keeps. */
  lemma FullScan(pk: PubKey, b: Content, threads: seq<ThreadPage>, subs: seq<Content>)
    requires AllThreadsRead(threads)
    ensures var r := ScanVotes(ScanThreads(WithBoard(pk, b), threads).value, subs);
      && r.pk == pk
      && r.index.board == b.hash
      && r.index.threads == ThreadHashesOf(threads)
      && r.index.posts.Keys == (set h | h in r.index.threads)
      && (forall i :: LastOccurrence(r.index.threads, i) ==>
            r.index.posts[r.index.threads[i]] == PostHashes(threads[i].posts.value))
      && b.hash in r.content
      && (forall i :: 0 <= i < |threads| ==> threads[i].thread.value.hash in r.content)
  {
    ThreadScan(pk, b, threads);
  }

  /** What a completed full scan yields for the votes: an aggregate for
      exactly the counted votes, each folding those filed under its key in
      scan order, and all well formed. */
  lemma FullScanVotes(pk: PubKey, b: Content, threads: seq<ThreadPage>, subs: seq<Content>)
    requires AllThreadsRead(threads)
    ensures var r := ScanVotes(ScanThreads(WithBoard(pk, b), threads).value, subs);
      && r.votes.Keys == CountedKeys(r, subs)
      && (forall k :: k in r.votes ==> r.votes[k] == FoldVotes(Fill(NewVotesRep(), k), VotesFor(r, subs, k)))
      && VotesConsistent(r)
  {
    var v := ScanThreads(WithBoard(pk, b), threads).value;
    assert v.votes == map[];
    assert VotesConsistent(v);
    ScanVotesKeys(v, subs);
    ScanVotesKeepsConsistent(v, subs);
    var r := ScanVotes(v, subs);
    assert r.content == v.content;
    assert CountedKeys(r, subs) == CountedKeys(v, subs);
    ScanVotesFromNone(v, subs);
  }

  /** What the thread part of a full scan yields, before any vote. */
  lemma ThreadScan(pk: PubKey, b: Content, threads: seq<ThreadPage>)
    requires AllThreadsRead(threads)
    ensures var v := ScanThreads(WithBoard(pk, b), threads).value;
      && v.pk == pk
      && v.index.board == b.hash
      && v.index.threads == ThreadHashesOf(threads)
      && v.index.posts.Keys == (set h | h in v.index.threads)
      && (forall i :: LastOccurrence(v.index.threads, i) ==>
            v.index.posts[v.index.threads[i]] == PostHashes(threads[i].posts.value))
      && b.hash in v.content
      && (forall i :: 0 <= i < |threads| ==> threads[i].thread.value.hash in v.content)
      && v.votes == map[]
      && VotesConsistent(v)
  {
    var w := WithBoard(pk, b);
    ScanThreadsPostKeys(w, threads);
    ScanThreadsPosts(w, threads);
    ScanThreadsContent(w, threads);
  }

  /** A submission scan that starts with no aggregates folds, into each
      aggregate it creates, the counted votes filed under its key. */
  lemma ScanVotesFromNone(v: ContentView, subs: seq<Content>)
    requires v.votes == map[]
    ensures var r := ScanVotes(v, subs);
            forall k :: k in r.votes ==> r.votes[k] == FoldVotes(Fill(NewVotesRep(), k), VotesFor(r, subs, k))
  {
    var r := ScanVotes(v, subs);
    forall k | k in r.votes ensures r.votes[k] == FoldVotes(Fill(NewVotesRep(), k), VotesFor(r, subs, k)) {
      ScanVotesFold(v, subs, k);
      VotesForFollowsContent(v, r, subs, k);
    }
  }

  // Folding a diff.

  /** Folds one diff item into the view. A thread is appended to the thread
      list; a post is appended to its thread's post list, which is created
      from empty when missing; thread and post votes go through
      `ProcessVote`; every other item is ignored. */
  function ApplyItem(v: ContentView, c: Content): (r: ContentView)
    ensures r.pk == v.pk && r.index.board == v.index.board
    ensures c.body.ThreadBody? ==>
      && r.index.threads == v.index.threads + [c.hash]
      && r.index.posts == v.index.posts && r.votes == v.votes
      && c.hash in r.content
    ensures c.body.PostBody? ==>
      && r.index.threads == v.index.threads
      && r.index.posts == v.index.posts[c.body.ofThread := PostsOf(v.index, c.body.ofThread) + [c.hash]]
      && r.votes == v.votes
      && c.hash in r.content
    ensures (c.body.ThreadVoteBody? || c.body.PostVoteBody?) ==>
      r.index == v.index && r.content == v.content && r == ProcessVote(v, c).value
    ensures !Counted(v, c) && !c.body.ThreadBody? && !c.body.PostBody? ==> r == v
    ensures v.content.Keys <= r.content.Keys
  {
    match c.body
    case ThreadBody(_, _, _, _) =>
      v.(index := v.index.(threads := v.index.threads + [c.hash]), content := v.content[c.hash := ToRep(c)])
    case PostBody(ofThread, _, _, _, _) =>
      v.(index := v.index.(posts := v.index.posts[ofThread := PostsOf(v.index, ofThread) + [c.hash]]),
         content := v.content[c.hash := ToRep(c)])
    case ThreadVoteBody(_, _, _) => ProcessVote(v, c).value
    case PostVoteBody(_, _, _) => ProcessVote(v, c).value
    case _ => v
  }

  /** Folds a diff into the view, first item to last. Nothing recorded is
      forgotten, and every thread and post item of the diff is recorded. */
  function ApplyDiff(v: ContentView, diff: seq<Content>): (r: ContentView)
    ensures r.pk == v.pk && r.index.board == v.index.board
    ensures v.content.Keys <= r.content.Keys
    ensures forall i :: 0 <= i < |diff| && (diff[i].body.ThreadBody? || diff[i].body.PostBody?) ==>
              diff[i].hash in r.content
  {
    if |diff| == 0 then v
    else
      var prefix := diff[..|diff| - 1];
      assert forall i :: 0 <= i < |prefix| ==> prefix[i] == diff[i];
      ApplyItem(ApplyDiff(v, prefix), diff[|diff| - 1])
  }

  /** Replaces the board: the old board hash leaves the content map and the
      new board is recorded under its own hash. */
  function InstallBoard(v: ContentView, board: Content): (r: ContentView)
    ensures r.index.board == board.hash
    ensures r.index.threads == v.index.threads && r.index.posts == v.index.posts && r.votes == v.votes
    ensures r.content.Keys == (v.content.Keys - {v.index.board}) + {board.hash}
    ensures r.content[board.hash] == ToRep(board)
  {
    v.(index := v.index.(board := board.hash), content := (v.content - {v.index.board})[board.hash := ToRep(board)])
  }

  /** Brings the view up to a new snapshot: reads its board (failing when
      the pages or the board cannot be read), installs it, then folds the
      diff: its thread items join the thread list and its post items their
      threads' post lists, in diff order. */
  function Update(v: ContentView, pages: Result<Pages>, diff: seq<Content>): (r: Result<ContentView>)
    ensures r.Ok? <==> pages.Ok? && pages.value.board.Ok?
    ensures pages.Err? ==> r == Err(pages.error)
    ensures pages.Ok? && pages.value.board.Err? ==> r == Err(pages.value.board.error)
    ensures r.Ok? ==> r.value.pk == v.pk && r.value.index.board == pages.value.board.value.hash
    ensures r.Ok? ==>
      && r.value.index.threads == v.index.threads + ThreadItems(diff)
      && (forall t :: PostsOf(r.value.index, t) == PostsOf(v.index, t) + PostItems(diff, t))
      && r.value.index.posts.Keys == v.index.posts.Keys + PostTargets(diff)
    ensures r.Ok? ==>
      && (v.content.Keys - {v.index.board}) + {pages.value.board.value.hash} <= r.value.content.Keys
      && (forall i :: 0 <= i < |diff| && (diff[i].body.ThreadBody? || diff[i].body.PostBody?) ==>
            diff[i].hash in r.value.content)
    ensures r.Ok? ==>
      var installed := InstallBoard(v, pages.value.board.value);
      && r.value.votes.Keys == v.votes.Keys + DiffVoteKeys(installed, diff)
      && (forall k :: k in r.value.votes ==> r.value.votes[k] == FoldVotes(StartRep(v, k), DiffVotes(installed, diff, k)))
    ensures r.Ok? && diff == [] ==>
      r.value.index.threads == v.index.threads && r.value.index.posts == v.index.posts && r.value.votes == v.votes
  {
    match pages
    case Err(e) => Err(e)
    case Ok(p) =>
      match p.board
      case Err(e) => Err(e)
      case Ok(b) =>
        assert diff == [] ==> ApplyDiff(InstallBoard(v, b), diff) == InstallBoard(v, b);
        ApplyDiffIndex(InstallBoard(v, b), diff);
        ApplyDiffVoteKeys(InstallBoard(v, b), diff);
        ApplyDiffVotesEverywhere(InstallBoard(v, b), diff);
        Ok(ApplyDiff(InstallBoard(v, b), diff))
  }

  // What a diff does to the index.

  /** The hashes of the thread items of a diff, in order. */
  function ThreadItems(diff: seq<Content>): seq<Hash>
  {
    if |diff| == 0 then []
    else ThreadItems(diff[..|diff| - 1]) + (if diff[|diff| - 1].body.ThreadBody? then [diff[|diff| - 1].hash] else [])
  }

  /** The hashes of the post items of a diff that name thread `t`, in order. */
  function PostItems(diff: seq<Content>, t: Hash): seq<Hash>
  {
    if |diff| == 0 then []
    else
      var last := diff[|diff| - 1];
      PostItems(diff[..|diff| - 1], t) + (if last.body.PostBody? && last.body.ofThread == t then [last.hash] else [])
  }

  /** The threads the post items of a diff name. */
  function PostTargets(diff: seq<Content>): set<Hash>
  {
    set i | 0 <= i < |diff| && diff[i].body.PostBody? :: diff[i].body.ofThread
  }

  /** Folding a diff appends its thread items to the thread list and each
      thread's post items to that thread's post list, in diff order; a post
      list exists afterwards exactly for the threads that had one or that a
      post item names. */
  lemma {:induction false} ApplyDiffIndex(v: ContentView, diff: seq<Content>)
    ensures ApplyDiff(v, diff).pk == v.pk && ApplyDiff(v, diff).index.board == v.index.board
    ensures ApplyDiff(v, diff).index.threads == v.index.threads + ThreadItems(diff)
    ensures forall t :: PostsOf(ApplyDiff(v, diff).index, t) == PostsOf(v.index, t) + PostItems(diff, t)
    ensures ApplyDiff(v, diff).index.posts.Keys == v.index.posts.Keys + PostTargets(diff)
  {
    if |diff| > 0 {
      var prefix, last := diff[..|diff| - 1], diff[|diff| - 1];
      var w := ApplyDiff(v, prefix);
      assert ApplyDiff(v, diff) == ApplyItem(w, last);
      ApplyDiffIndex(v, prefix);
      ApplyItemIndex(w, last);
      PostTargetsOfSnoc(diff);
      forall t ensures PostsOf(ApplyItem(w, last).index, t) == PostsOf(v.index, t) + PostItems(diff, t) {
        var extra := if last.body.PostBody? && last.body.ofThread == t then [last.hash] else [];
        assert PostItems(diff, t) == PostItems(prefix, t) + extra;
        assert PostsOf(ApplyItem(w, last).index, t) == (PostsOf(v.index, t) + PostItems(prefix, t)) + extra;
        AppendIsAssociative(PostsOf(v.index, t), PostItems(prefix, t), extra);
      }
    }
  }

  /** Appending sequences is associative. */
  lemma AppendIsAssociative(a: seq<Hash>, b: seq<Hash>, c: seq<Hash>)
    ensures (a + b) + c == a + (b + c)
  {
  }

  /** What one diff item does to the index. */
  lemma ApplyItemIndex(w: ContentView, c: Content)
    ensures ApplyItem(w, c).index.threads == w.index.threads + (if c.body.ThreadBody? then [c.hash] else [])
    ensures forall t :: PostsOf(ApplyItem(w, c).index, t)
                        == PostsOf(w.index, t) + (if c.body.PostBody? && c.body.ofThread == t then [c.hash] else [])
    ensures ApplyItem(w, c).index.posts.Keys == w.index.posts.Keys + (if c.body.PostBody? then {c.body.ofThread} else {})
  {
  }

  /** The threads the post items of a diff name: those of all but its last
      item, and the last item's thread when it is a post. */
  lemma PostTargetsOfSnoc(diff: seq<Content>)
    requires |diff| > 0
    ensures var last := diff[|diff| - 1];
            PostTargets(diff) == PostTargets(diff[..|diff| - 1]) + (if last.body.PostBody? then {last.body.ofThread} else {})
  {
    var prefix, last := diff[..|diff| - 1], diff[|diff| - 1];
    forall h | h in PostTargets(diff) ensures h in PostTargets(prefix) + (if last.body.PostBody? then {last.body.ofThread} else {}) {
      var i :| 0 <= i < |diff| && diff[i].body.PostBody? && diff[i].body.ofThread == h;
      if i < |diff| - 1 {
        assert prefix[i] == diff[i];
      }
    }
    forall h | h in PostTargets(prefix) ensures h in PostTargets(diff) {
      var i :| 0 <= i < |prefix| && prefix[i].body.PostBody? && prefix[i].body.ofThread == h;
      assert diff[i] == prefix[i];
    }
  }

  // What a diff does to the votes.

  /** What one diff item does to the votes map: a counted vote is folded in
      under its key, and every other item leaves the map as it was. */
  lemma ApplyItemVotes(w: ContentView, c: Content)
    ensures !Counted(w, c) ==> ApplyItem(w, c).votes == w.votes
    ensures Counted(w, c) ==> ApplyItem(w, c).votes == FoldVote(w, VoteKey(c), VoteOf(c)).votes
  {
  }

  /** The votes of the diff items filed under `key` that are counted when
      their turn comes, against the view as folded up to them, in diff
      order. */
  function DiffVotes(v: ContentView, diff: seq<Content>, key: Hash): seq<Vote>
  {
    if |diff| == 0 then []
    else
      var prefix, last := diff[..|diff| - 1], diff[|diff| - 1];
      DiffVotes(v, prefix, key) + (if Counted(ApplyDiff(v, prefix), last) && VoteKey(last) == key then [VoteOf(last)] else [])
  }

  /** The keys of the diff's vote items that are counted when their turn
      comes. */
  function DiffVoteKeys(v: ContentView, diff: seq<Content>): set<Hash>
  {
    set i | 0 <= i < |diff| && CountedAt(v, diff, i) :: VoteKey(diff[i])
  }

  /** The `i`-th diff item is counted against the view folded up to it. */
  predicate CountedAt(v: ContentView, diff: seq<Content>, i: int)
    requires 0 <= i < |diff|
  {
    Counted(ApplyDiff(v, diff[..i]), diff[i])
  }

  /** Dropping the last item of a diff changes no earlier item's count. */
  lemma CountedAtOfPrefix(v: ContentView, diff: seq<Content>, i: int)
    requires 0 <= i < |diff| - 1
    ensures diff[..|diff| - 1][i] == diff[i]
    ensures CountedAt(v, diff[..|diff| - 1], i) == CountedAt(v, diff, i)
  {
    assert diff[..|diff| - 1][..i] == diff[..i];
  }

  /** Folding a diff folds, into the aggregate under `key`, exactly the
      diff's counted votes filed under `key`, in diff order; the aggregate
      exists afterwards exactly when it did before or such a vote exists. */
  lemma {:induction false} ApplyDiffVotes(v: ContentView, diff: seq<Content>, key: Hash)
    ensures key in ApplyDiff(v, diff).votes <==> key in v.votes || DiffVotes(v, diff, key) != []
    ensures key in ApplyDiff(v, diff).votes ==>
              ApplyDiff(v, diff).votes[key] == FoldVotes(StartRep(v, key), DiffVotes(v, diff, key))
  {
    if |diff| > 0 {
      var prefix, last := diff[..|diff| - 1], diff[|diff| - 1];
      var w := ApplyDiff(v, prefix);
      ApplyDiffVotes(v, prefix, key);
      ApplyItemVotes(w, last);
      assert ApplyDiff(v, diff) == ApplyItem(w, last);
      if Counted(w, last) && VoteKey(last) == key {
        assert StartRep(w, key) == FoldVotes(StartRep(v, key), DiffVotes(v, prefix, key));
        FoldVotesSnoc(StartRep(v, key), DiffVotes(v, prefix, key), VoteOf(last));
      } else {
        assert key in ApplyDiff(v, diff).votes ==> key in w.votes && ApplyDiff(v, diff).votes[key] == w.votes[key];
        assert DiffVotes(v, diff, key) == DiffVotes(v, prefix, key) + [];
        assert DiffVotes(v, diff, key) == DiffVotes(v, prefix, key);
      }
    }
  }

  /** The counted vote keys of a diff: those of all but its last item, and
      the last item's key when it is counted after the rest. */
  lemma DiffVoteKeysOfSnoc(v: ContentView, diff: seq<Content>)
    requires |diff| > 0
    ensures var prefix, last := diff[..|diff| - 1], diff[|diff| - 1];
            DiffVoteKeys(v, diff)
            == DiffVoteKeys(v, prefix) + (if Counted(ApplyDiff(v, prefix), last) then {VoteKey(last)} else {})
  {
    var prefix, last := diff[..|diff| - 1], diff[|diff| - 1];
    var extra := if Counted(ApplyDiff(v, prefix), last) then {VoteKey(last)} else {};
    forall h | h in DiffVoteKeys(v, diff) ensures h in DiffVoteKeys(v, prefix) + extra {
      var i :| 0 <= i < |diff| && CountedAt(v, diff, i) && VoteKey(diff[i]) == h;
      if i < |diff| - 1 {
        CountedAtOfPrefix(v, diff, i);
      } else {
        assert diff[..i] == prefix;
      }
    }
    forall h | h in DiffVoteKeys(v, prefix) ensures h in DiffVoteKeys(v, diff) {
      var i :| 0 <= i < |prefix| && CountedAt(v, prefix, i) && VoteKey(prefix[i]) == h;
      CountedAtOfPrefix(v, diff, i);
    }
  }

  /** Folding a diff creates an aggregate for exactly the counted vote
      items, under their own keys; votes for unknown targets and every other
      item leave no trace. */
  lemma {:induction false} ApplyDiffVoteKeys(v: ContentView, diff: seq<Content>)
    ensures ApplyDiff(v, diff).votes.Keys == v.votes.Keys + DiffVoteKeys(v, diff)
  {
    if |diff| > 0 {
      var prefix, last := diff[..|diff| - 1], diff[|diff| - 1];
      ApplyDiffVoteKeys(v, prefix);
      ApplyItemVotes(ApplyDiff(v, prefix), last);
      DiffVoteKeysOfSnoc(v, diff);
    }
  }

  /** `ApplyDiffVotes` for every key at once. */
  lemma ApplyDiffVotesEverywhere(v: ContentView, diff: seq<Content>)
    ensures forall k :: k in ApplyDiff(v, diff).votes ==>
              ApplyDiff(v, diff).votes[k] == FoldVotes(StartRep(v, k), DiffVotes(v, diff, k))
  {
    forall k | k in ApplyDiff(v, diff).votes
      ensures ApplyDiff(v, diff).votes[k] == FoldVotes(StartRep(v, k), DiffVotes(v, diff, k))
    {
      ApplyDiffVotes(v, diff, k);
    }
  }

  /** Folding a diff keeps every vote aggregate well formed. */
  lemma {:induction false} ApplyDiffKeepsConsistent(v: ContentView, diff: seq<Content>)
    requires VotesConsistent(v)
    ensures VotesConsistent(ApplyDiff(v, diff))
  {
    if |diff| > 0 {
      var prefix := ApplyDiff(v, diff[..|diff| - 1]);
      ApplyDiffKeepsConsistent(v, diff[..|diff| - 1]);
      var last := diff[|diff| - 1];
      if last.body.ThreadVoteBody? || last.body.PostVoteBody? {
        ProcessVoteKeepsConsistent(prefix, last);
      }
    }
  }

  /** A diff with no thread, post or counted vote item leaves the index and
      the votes as they were. */
  lemma {:induction false} IgnoredItemsChangeNothing(v: ContentView, diff: seq<Content>)
    requires forall i :: 0 <= i < |diff| ==> !diff[i].body.ThreadBody? && !diff[i].body.PostBody?
                                              && !diff[i].body.ThreadVoteBody? && !diff[i].body.PostVoteBody?
    ensures ApplyDiff(v, diff) == v
  {
    if |diff| > 0 {
      IgnoredItemsChangeNothing(v, diff[..|diff| - 1]);
    }
  }

  /** A successful update keeps every vote aggregate well formed. */
  lemma UpdateKeepsConsistent(v: ContentView, pages: Result<Pages>, diff: seq<Content>)
    requires VotesConsistent(v)
    ensures Update(v, pages, diff).Ok? ==> VotesConsistent(Update(v, pages, diff).value)
  {
    if pages.Ok? && pages.value.board.Ok? {
      ApplyDiffKeepsConsistent(InstallBoard(v, pages.value.board.value), diff);
    }
  }
}

=== FILE: follow_view.dfy ===
/** The follow view: one follow record per user, derived from user-vote
    submissions only. The follow record itself (its constructor, its `Set`
    and its `View`) is not part of this model and is passed in as functions. */
module FollowViews {
  import opened Boo
  import opened R0

  /** The follow record operations: a fresh record for a user, `Set` with
      (creator, value, tag), and the record's view. */
  datatype FollowOps<!R, W> = FollowOps(newRep: PubKey -> R, setRep: (R, PubKey, int, string) -> R, view: R -> W)

  /** User public key to that user's follow record. */
  datatype FollowView<R> = FollowView(uMap: map<PubKey, R>)

  /** What a follow page query answers: the default view, carrying only the
      user's key, for a user with no record, or the record's own view. */
  datatype FollowReply<W> = DefaultView(userPubKey: PubKey) | RepView(view: W)

  /** The query id of the one query the view answers. */
  const FollowPage: string := "FollowPage"

  /** Applies one submission. A user vote makes sure its creator has a
      record, reusing an existing one, and calls `Set` on it; every other
      item is ignored. */
  function ApplySubmission<R, W>(ops: FollowOps<R, W>, v: FollowView<R>, c: Content): (r: FollowView<R>)
    ensures !c.body.UserVoteBody? ==> r == v
    ensures c.body.UserVoteBody? ==>
      var creator := c.body.creator;
      && r.uMap.Keys == v.uMap.Keys + {creator}
      && (forall k :: k in v.uMap && k != creator ==> r.uMap[k] == v.uMap[k])
      && (creator in v.uMap ==> r.uMap[creator] == ops.setRep(v.uMap[creator], creator, c.body.value, c.body.tag))
      && (creator !in v.uMap ==> r.uMap[creator] == ops.setRep(ops.newRep(creator), creator, c.body.value, c.body.tag))
  {
    match c.body
    case UserVoteBody(_, creator, value, tag) =>
      var rep := if creator in v.uMap then v.uMap[creator] else ops.newRep(creator);
      v.(uMap := v.uMap[creator := ops.setRep(rep, creator, value, tag)])
    case _ => v
  }

  /** Applies submissions in order, first to last. No record is dropped,
      and a sequence without user votes changes nothing. */
  function ApplyAll<R, W>(ops: FollowOps<R, W>, v: FollowView<R>, items: seq<Content>): (r: FollowView<R>)
    ensures v.uMap.Keys <= r.uMap.Keys
    ensures (forall i :: 0 <= i < |items| ==> !items[i].body.UserVoteBody?) ==> r == v
  {
    if |items| == 0 then v
    else
      var prefix := items[..|items| - 1];
      assert forall i :: 0 <= i < |prefix| ==> prefix[i] == items[i];
      ApplySubmission(ops, ApplyAll(ops, v, prefix), items[|items| - 1])
  }

  /** Folds a diff into the view. The update never fails; the map gains a
      record exactly for the creators of the diff's user votes, every other
      user keeps their record, and only the user votes matter. */
  function Update<R, W>(ops: FollowOps<R, W>, v: FollowView<R>, diff: seq<Content>): (r: Result<FollowView<R>>)
    ensures r.Ok?
    ensures r.value.uMap.Keys == v.uMap.Keys + UserVoters(diff)
    ensures forall u :: u in v.uMap && u !in UserVoters(diff) ==> r.value.uMap[u] == v.uMap[u]
    ensures r.value == ApplyAll(ops, v, UserVotes(diff))
    ensures diff == [] ==> r.value == v
  {
    ApplyAllKeys(ops, v, diff);
    OtherUsersUntouched(ops, v, diff);
    OnlyUserVotesMatter(ops, v, diff);
    Ok(ApplyAll(ops, v, diff))
  }

  /** Builds the view by a full scan: the map starts empty and every user's
      submissions are applied in scan order, exactly as a diff would be.
      Fails when the pages or some profile cannot be read. */
  function Init<R, W>(ops: FollowOps<R, W>, pages: Result<Pages>): (r: Result<FollowView<R>>)
    ensures r.Ok? <==> pages.Ok? && AllProfilesRead(pages.value.users)
    ensures pages.Err? ==> r == Err(pages.error)
    ensures r.Ok? ==> r == Update(ops, FollowView(map[]), Submissions(pages.value.users).value)
    ensures pages.Ok? && r.Err? ==> r.error == Submissions(pages.value.users).error
  {
    match pages
    case Err(e) => Err(e)
    case Ok(p) =>
      match Submissions(p.users)
      case Err(e) => Err(e)
      case Ok(subs) => Ok(ApplyAll(ops, FollowView(map[]), subs))
  }

  /** Answers a query. `FollowPage` with exactly one argument, a user key,
      answers that user's record view, or the default view for a user with
      none; any other query is not allowed. The source reads the first
      argument before looking at the query, so at least one is required. */
  function Get<R, W>(ops: FollowOps<R, W>, v: FollowView<R>, id: string, args: seq<string>): (r: Result<FollowReply<W>>)
    requires |args| >= 1
    ensures r.Ok? <==> id == FollowPage && |args| == 1
    ensures r.Err? ==> r.error == NotAllowed
    ensures r.Ok? && args[0] !in v.uMap ==> r.value == DefaultView(args[0])
    ensures r.Ok? && args[0] in v.uMap ==> r.value == RepView(ops.view(v.uMap[args[0]]))
  {
    var upk := args[0];
    if id == FollowPage && |args| == 1 then
      if upk !in v.uMap then Ok(DefaultView(upk)) else Ok(RepView(ops.view(v.uMap[upk])))
    else Err(NotAllowed)
  }

  /** The creators of the user-vote items of a sequence. */
  function UserVoters(items: seq<Content>): set<PubKey>
  {
    set i | 0 <= i < |items| && items[i].body.UserVoteBody? :: items[i].body.creator
  }

  /** The user-vote items of a sequence, in order. */
  function UserVotes(items: seq<Content>): (r: seq<Content>)
    ensures forall i :: 0 <= i < |r| ==> r[i].body.UserVoteBody?
  {
    if |items| == 0 then []
    else UserVotes(items[..|items| - 1]) + (if items[|items| - 1].body.UserVoteBody? then [items[|items| - 1]] else [])
  }

  /** After applying submissions the map holds exactly the users it held
      before and the creators of the user votes among them. */
  lemma {:induction false} ApplyAllKeys<R, W>(ops: FollowOps<R, W>, v: FollowView<R>, items: seq<Content>)
    ensures ApplyAll(ops, v, items).uMap.Keys == v.uMap.Keys + UserVoters(items)
  {
    if |items| > 0 {
      var prefix := items[..|items| - 1];
      var last := items[|items| - 1];
      ApplyAllKeys(ops, v, prefix);
      assert UserVoters(items) == UserVoters(prefix) + (if last.body.UserVoteBody? then {last.body.creator} else {}) by {
        forall k | k in UserVoters(items)
          ensures k in UserVoters(prefix) + (if last.body.UserVoteBody? then {last.body.creator} else {})
        {
          var i :| 0 <= i < |items| && items[i].body.UserVoteBody? && items[i].body.creator == k;
          if i < |items| - 1 {
            assert prefix[i] == items[i];
          }
        }
        forall k | k in UserVoters(prefix) ensures k in UserVoters(items) {
          var i :| 0 <= i < |prefix| && prefix[i].body.UserVoteBody? && prefix[i].body.creator == k;
          assert items[i] == prefix[i];
        }
      }
    }
  }

  /** Only user votes matter: applying a sequence is the same as applying
      just its user votes. */
  lemma {:induction false} OnlyUserVotesMatter<R, W>(ops: FollowOps<R, W>, v: FollowView<R>, items: seq<Content>)
    ensures ApplyAll(ops, v, items) == ApplyAll(ops, v, UserVotes(items))
  {
    if |items| > 0 {
      var prefix := items[..|items| - 1];
      var last := items[|items| - 1];
      OnlyUserVotesMatter(ops, v, prefix);
      var us := UserVotes(prefix);
      if last.body.UserVoteBody? {
        assert UserVotes(items) == us + [last];
        assert (us + [last])[..|us + [last]| - 1] == us;
      } else {
        assert UserVotes(items) == us;
      }
    }
  }

  /** Users that no user vote of the sequence comes from keep their record. */
  lemma {:induction false} OtherUsersUntouched<R, W>(ops: FollowOps<R, W>, v: FollowView<R>, items: seq<Content>)
    ensures forall u :: u in v.uMap && u !in UserVoters(items) ==>
              u in ApplyAll(ops, v, items).uMap && ApplyAll(ops, v, items).uMap[u] == v.uMap[u]
  {
    if |items| > 0 {
      var prefix := items[..|items| - 1];
      assert UserVoters(prefix) <= UserVoters(items) by {
        forall k | k in UserVoters(prefix) ensures k in UserVoters(items) {
          var i :| 0 <= i < |prefix| && prefix[i].body.UserVoteBody? && prefix[i].body.creator == k;
          assert items[i] == prefix[i];
        }
      }
      OtherUsersUntouched(ops, v, prefix);
      assert items[|items| - 1].body.UserVoteBody? ==> items[|items| - 1].body.creator in UserVoters(items);
    }
  }

  /** A query right after a user vote from `u` answers the view of `u`'s
      record as `Set` left it: the existing record, or a fresh one. */
  lemma GetAfterUserVote<R, W>(ops: FollowOps<R, W>, v: FollowView<R>, c: Content)
    requires c.body.UserVoteBody?
    ensures var u := c.body.creator;
            var before := if u in v.uMap then v.uMap[u] else ops.newRep(u);
            Get(ops, ApplySubmission(ops, v, c), FollowPage, [u])
              == Ok(RepView(ops.view(ops.setRep(before, u, c.body.value, c.body.tag))))
  {
  }

  /** A user with no record and no user vote in the applied items is still
      answered with the default view. */
  lemma GetWithoutUserVote<R, W>(ops: FollowOps<R, W>, v: FollowView<R>, items: seq<Content>, u: PubKey)
    requires u !in v.uMap && u !in UserVoters(items)
    ensures Get(ops, ApplyAll(ops, v, items), FollowPage, [u]) == Ok(DefaultView(u))
  {
    ApplyAllKeys(ops, v, items);
  }
}

=== FILE: incomplete.dfy ===
/** The single-flight table of outstanding requests: each request hash owns
    a one-slot mailbox that the matching response is delivered into without
    blocking. */
module Incompletes {
  import opened Boo
  import opened R0

  /** A response, matched to its request by hash. */
  datatype Response = Response(hash: Hash, payload: string)

  /** A one-slot mailbox: empty, or holding one undelivered response. */
  type Mailbox = Option<Response>

  datatype Incomplete = Incomplete(store: map<Hash, Mailbox>)

  function NewIncomplete(): (t: Incomplete)
    ensures t.store == map[]
  {
    Incomplete(map[])
  }

  /** The table after a registration, and what the registrant gets back. */
  datatype Added = Added(table: Incomplete, reply: Result<Mailbox>)

  /** Registers a request: a hash already in flight is `AlreadyExists` and
      changes nothing; otherwise the hash gets a fresh empty mailbox, which
      is returned. */
  function Add(t: Incomplete, hash: Hash): (r: Added)
    ensures hash in t.store ==> r.table == t && r.reply == Err(AlreadyExists)
    ensures hash !in t.store ==> && r.reply == Ok(None)
                                 && r.table.store.Keys == t.store.Keys + {hash}
                                 && r.table.store[hash] == None
                                 && forall h :: h in t.store ==> r.table.store[h] == t.store[h]
  {
    if hash in t.store then Added(t, Err(AlreadyExists))
    else Added(Incomplete(t.store[hash := None]), Ok(None))
  }

  /** The table after a removal, and what the removed mailbox still holds.
      Closing a mailbox keeps a response already in it: the registrant's
      next receive takes it, and every receive after that yields nothing. */
  datatype Removed = Removed(table: Incomplete, leftover: Mailbox)

  /** Forgets a request, closing its mailbox and handing back what it still
      holds; a hash not in flight is ignored. */
  function Remove(t: Incomplete, hash: Hash): (r: Removed)
    ensures hash !in r.table.store
    ensures r.table.store.Keys == t.store.Keys - {hash}
    ensures forall h :: h in r.table.store ==> r.table.store[h] == t.store[h]
    ensures hash in t.store ==> r.leftover == t.store[hash]
    ensures hash !in t.store ==> r == Removed(t, None)
  {
    if hash in t.store then Removed(Incomplete(t.store - {hash}), t.store[hash]) else Removed(t, None)
  }

  /** Delivers a response without blocking: into its request's mailbox when
      that is empty; dropped when the mailbox is full or no request with the
      response's hash is in flight. */
  function Satisfy(t: Incomplete, res: Response): (r: Incomplete)
    ensures r.store.Keys == t.store.Keys
    ensures forall h :: h in t.store && h != res.hash ==> r.store[h] == t.store[h]
    ensures res.hash !in t.store ==> r == t
    ensures res.hash in t.store && t.store[res.hash].None? ==> r.store[res.hash] == Some(res)
    ensures res.hash in t.store && t.store[res.hash].Some? ==> r == t
  {
    if res.hash in t.store && t.store[res.hash].None? then Incomplete(t.store[res.hash := Some(res)]) else t
  }

  /** A second registration of a hash in flight fails and leaves the first
      in place. */
  lemma AddTwiceFails(t: Incomplete, hash: Hash)
    requires hash !in t.store
    ensures var first := Add(t, hash).table;
            Add(first, hash).reply == Err(AlreadyExists) && Add(first, hash).table == first
  {
  }

  /** Removing a fresh registration that got no response restores the
      table and leaves nothing behind. */
  lemma RemoveUndoesAdd(t: Incomplete, hash: Hash)
    requires hash !in t.store
    ensures Remove(Add(t, hash).table, hash) == Removed(t, None)
  {
    assert Remove(Add(t, hash).table, hash).table.store == t.store;
  }

  /** Removing twice is removing once, and the second removal finds
      nothing left. */
  lemma RemoveIsIdempotent(t: Incomplete, hash: Hash)
    ensures Remove(Remove(t, hash).table, hash) == Removed(Remove(t, hash).table, None)
  {
  }

  /** A response that arrives after its request was removed is dropped. */
  lemma SatisfyAfterRemoveIsNoOp(t: Incomplete, res: Response)
    ensures Satisfy(Remove(t, res.hash).table, res) == Remove(t, res.hash).table
  {
  }

  /** A response delivered before its request is removed is not lost: the
      removal hands it back for the registrant, and the table is as it was
      before the registration. */
  lemma RemoveKeepsDelivery(t: Incomplete, res: Response)
    requires res.hash !in t.store
    ensures Remove(Satisfy(Add(t, res.hash).table, res), res.hash) == Removed(t, Some(res))
  {
    assert Remove(Satisfy(Add(t, res.hash).table, res), res.hash).table.store == t.store;
  }

  /** A response the registrant already took is not handed back again by
      the removal. */
  lemma RemoveAfterReceiveLeavesNothing(t: Incomplete, res: Response)
    requires res.hash !in t.store
    ensures var taken := Receive(Satisfy(Add(t, res.hash).table, res), res.hash);
            taken.got == Some(res) && Remove(taken.table, res.hash) == Removed(t, None)
  {
    var taken := Receive(Satisfy(Add(t, res.hash).table, res), res.hash);
    assert Remove(taken.table, res.hash).table.store == t.store;
  }

  /** Two responses for the same fresh registration, with no drain between
      them: the first is delivered, the second dropped. */
  lemma SatisfyDeliversOnce(t: Incomplete, first: Response, second: Response)
    requires first.hash == second.hash
    requires first.hash !in t.store
    ensures var registered := Add(t, first.hash).table;
            && Satisfy(Satisfy(registered, first), second) == Satisfy(registered, first)
            && Satisfy(registered, first).store[first.hash] == Some(first)
  {
  }

  /** The table after a receive, and the response taken, if any. */
  datatype Received = Received(table: Incomplete, got: Option<Response>)

  /** The registrant's non-blocking receive on its mailbox while the
      request is in flight: a delivered response is taken and the mailbox
      is empty again; an empty mailbox yields nothing and changes nothing.
      Once the request is removed the table holds no mailbox for it, and
      the registrant's receive takes the leftover `Remove` handed back. */
  function Receive(t: Incomplete, hash: Hash): (r: Received)
    ensures r.table.store.Keys == t.store.Keys
    ensures forall h :: h in t.store && h != hash ==> r.table.store[h] == t.store[h]
    ensures hash in t.store && t.store[hash].Some? ==> r.got == t.store[hash] && r.table.store[hash] == None
    ensures !(hash in t.store && t.store[hash].Some?) ==> r == Received(t, None)
  {
    if hash in t.store && t.store[hash].Some? then Received(Incomplete(t.store[hash := None]), t.store[hash])
    else Received(t, None)
  }

  /** Receiving takes exactly what a delivery put in an empty mailbox and
      leaves the table as it was before the delivery. */
  lemma ReceiveTakesDelivery(t: Incomplete, res: Response)
    requires res.hash in t.store && t.store[res.hash].None?
    ensures Receive(Satisfy(t, res), res.hash) == Received(t, Some(res))
  {
    assert Receive(Satisfy(t, res), res.hash).table.store == t.store;
  }

  /** Once the registrant has taken a response, the next one is delivered
      again rather than dropped. */
  lemma SatisfyAfterReceiveDelivers(t: Incomplete, first: Response, second: Response)
    requires first.hash == second.hash
    requires first.hash !in t.store
    ensures var taken := Receive(Satisfy(Add(t, first.hash).table, first), first.hash);
            && taken.got == Some(first)
            && Satisfy(taken.table, second).store[second.hash] == Some(second)
  {
  }
}

=== FILE: r0.dfy ===
/** Content items of board revision r0 and the pages a snapshot is read
    through. Content is immutable and addressed by its hash. */
module R0 {
  import opened Boo

  type Hash = string
  type PubKey = string

  /** The typed body of a content item; the variant is the item's type tag. */
  datatype Body =
    | BoardBody(name: string, body: string, created: int, subAddresses: seq<string>)
    | ThreadBody(name: string, body: string, created: int, creator: PubKey)
    | PostBody(ofThread: Hash, name: string, body: string, created: int, creator: PubKey)
    | ThreadVoteBody(ofThread: Hash, creator: PubKey, mode: int)
    | PostVoteBody(ofPost: Hash, creator: PubKey, mode: int)
    | UserVoteBody(ofUser: PubKey, creator: PubKey, value: int, tag: string)

  /** A content item: its header hash and its body. */
  datatype Content = Content(hash: Hash, body: Body)

  /** A thread page of a snapshot: reading the thread itself, and ranging
      over its posts, may each fail. */
  datatype ThreadPage = ThreadPage(thread: Result<Content>, posts: Result<seq<Content>>)

  /** A user profile page: ranging over the user's submissions, in scan
      order, may fail. */
  datatype UserProfile = UserProfile(submissions: Result<seq<Content>>)

  /** The pages of one snapshot: the board (whose read may fail), its thread
      pages in snapshot order, and the user profiles. */
  datatype Pages = Pages(board: Result<Content>, threads: seq<ThreadPage>, users: seq<UserProfile>)

  /** Every profile's submissions could be read. */
  predicate AllProfilesRead(users: seq<UserProfile>)
  {
    forall i :: 0 <= i < |users| ==> users[i].submissions.Ok?
  }

  /** Every submission of every user, profile by profile, in scan order. The
      range stops at the first profile that cannot be read, with its error. */
  function Submissions(users: seq<UserProfile>): (r: Result<seq<Content>>)
    ensures r.Ok? <==> AllProfilesRead(users)
    ensures r.Err? ==> exists i :: 0 <= i < |users| && users[i].submissions.Err?
                                   && r.error == users[i].submissions.error && AllProfilesRead(users[..i])
  {
    if |users| == 0 then Ok([])
    else
      var prefix := users[..|users| - 1];
      assert forall i :: 0 <= i < |prefix| ==> prefix[i] == users[i];
      match Submissions(prefix)
      case Err(e) =>
        assert forall i :: 0 <= i < |prefix| ==> prefix[..i] == users[..i];
        Err(e)
      case Ok(earlier) =>
        match users[|users| - 1].submissions
        case Err(e) => Err(e)
        case Ok(mine) => Ok(earlier + mine)
  }

  /** The submissions of fully read profiles, first profile first: the
      reference reading of what a scan over the profiles collects. */
  function Concat(users: seq<UserProfile>): seq<Content>
    requires AllProfilesRead(users)
  {
    if |users| == 0 then [] else users[0].submissions.value + Concat(users[1..])
  }

  /** Appending a profile appends its submissions. */
  lemma {:induction false} ConcatSnoc(users: seq<UserProfile>, u: UserProfile)
    requires AllProfilesRead(users) && u.submissions.Ok?
    ensures AllProfilesRead(users + [u])
    ensures Concat(users + [u]) == Concat(users) + u.submissions.value
  {
    if |users| > 0 {
      assert (users + [u])[1..] == users[1..] + [u];
      ConcatSnoc(users[1..], u);
    }
  }

  /** When every profile can be read, the scan yields every profile's
      submissions, profile by profile, each in its own order. */
  lemma {:induction false} SubmissionsInScanOrder(users: seq<UserProfile>)
    requires AllProfilesRead(users)
    ensures Submissions(users) == Ok(Concat(users))
  {
    if |users| > 0 {
      var prefix, last := users[..|users| - 1], users[|users| - 1];
      assert AllProfilesRead(prefix);
      SubmissionsInScanOrder(prefix);
      ConcatSnoc(prefix, last);
      assert prefix + [last] == users;
    }
  }

  /** Every submission of every profile is among the scanned submissions. */
  lemma {:induction false} EverySubmissionIsScanned(users: seq<UserProfile>)
    requires AllProfilesRead(users)
    ensures forall i, j :: 0 <= i < |users| && 0 <= j < |users[i].submissions.value| ==>
              users[i].submissions.value[j] in Submissions(users).value
  {
    SubmissionsInScanOrder(users);
    ConcatHolds(users);
  }

  /** `Concat` keeps every submission it is given. */
  lemma {:induction false} ConcatHolds(users: seq<UserProfile>)
    requires AllProfilesRead(users)
    ensures forall i, j :: 0 <= i < |users| && 0 <= j < |users[i].submissions.value| ==>
              users[i].submissions.value[j] in Concat(users)
  {
    if |users| > 0 {
      ConcatHolds(users[1..]);
      forall i, j | 0 <= i < |users| && 0 <= j < |users[i].submissions.value|
        ensures users[i].submissions.value[j] in Concat(users)
      {
        if i > 0 {
          assert users[i] == users[1..][i - 1];
        }
      }
    }
  }
}

=== FILE: reps.dfy ===
/** Read-model representations of board content: the flattened board,
    thread and post records, and the per-target vote aggregate. */
module Reps {
  import opened Boo
  import opened R0

  // Boards.

  datatype BoardRep = BoardRep(pubKey: PubKey, name: string, body: string, created: int,
                               subAddresses: seq<string>, threads: seq<Hash>)

  datatype BoardRepView = BoardRepView(pubKey: PubKey, name: string, body: string, created: int,
                                       subAddresses: seq<string>, threadCount: nat)

  /** A nil rep has a nil view; otherwise the descriptive fields are copied
      and the thread list is reported by its length. */
  function BoardView(r: Option<BoardRep>): (v: Option<BoardRepView>)
    ensures v.Some? <==> r.Some?
    ensures r.Some? ==> v.value.threadCount == |r.value.threads|
    ensures r.Some? ==> && v.value.pubKey == r.value.pubKey && v.value.name == r.value.name
                        && v.value.body == r.value.body && v.value.created == r.value.created
                        && v.value.subAddresses == r.value.subAddresses
  {
    match r
    case None => None
    case Some(b) => Some(BoardRepView(b.pubKey, b.name, b.body, b.created, b.subAddresses, |b.threads|))
  }

  // Threads.

  datatype ThreadRep = ThreadRep(ref: Hash, name: string, body: string, created: int,
                                 creator: PubKey, posts: seq<Hash>)

  datatype ThreadRepView = ThreadRepView(ref: Hash, name: string, body: string, created: int,
                                         creator: PubKey, votes: Option<VoteRepView>, postCount: nat)

  /** A nil rep has a nil view; otherwise the fields are copied, the given
      vote view is attached, and the post list is reported by its length. */
  function ThreadView(r: Option<ThreadRep>, votes: Option<VoteRepView>): (v: Option<ThreadRepView>)
    ensures v.Some? <==> r.Some?
    ensures r.Some? ==> v.value.postCount == |r.value.posts| && v.value.votes == votes
    ensures r.Some? ==> && v.value.ref == r.value.ref && v.value.name == r.value.name
                        && v.value.body == r.value.body && v.value.created == r.value.created
                        && v.value.creator == r.value.creator
  {
    match r
    case None => None
    case Some(t) => Some(ThreadRepView(t.ref, t.name, t.body, t.created, t.creator, votes, |t.posts|))
  }

  // Posts.

  datatype PostRep = PostRep(ref: Hash, name: string, body: string, created: int, creator: PubKey)

  datatype PostRepView = PostRepView(ref: Hash, name: string, body: string, created: int,
                                     creator: PubKey, votes: Option<VoteRepView>)

  /** A nil rep has a nil view; otherwise the fields are copied and the given
      vote view is attached. */
  function PostView(r: Option<PostRep>, votes: Option<VoteRepView>): (v: Option<PostRepView>)
    ensures v.Some? <==> r.Some?
    ensures r.Some? ==> && v.value.ref == r.value.ref && v.value.name == r.value.name
                        && v.value.body == r.value.body && v.value.created == r.value.created
                        && v.value.creator == r.value.creator && v.value.votes == votes
  {
    match r
    case None => None
    case Some(p) => Some(PostRepView(p.ref, p.name, p.body, p.created, p.creator, votes))
  }

  // Vote aggregates.

  /** One voter's vote: +1 up, -1 down, 0 retraction. */
  datatype Vote = Vote(creator: PubKey, mode: int)

  /** The aggregate of votes on one target: the current vote of each voter
      and the running up/down tallies. */
  datatype VotesRep = VotesRep(ref: Hash, votes: map<PubKey, Vote>, upCount: int, downCount: int)

  /** The zero value a fresh `new(VotesRep)` starts from. */
  function NewVotesRep(): VotesRep
  {
    VotesRep("", map[], 0, 0)
  }

  /** Points the aggregate at `hash` and forgets every recorded vote; the
      tallies are left as they were (they are zero on a fresh aggregate). */
  function Fill(r: VotesRep, hash: Hash): (r': VotesRep)
    ensures r'.ref == hash && r'.votes == map[]
    ensures r'.upCount == r.upCount && r'.downCount == r.downCount
  {
    r.(ref := hash, votes := map[])
  }

  /** Folds one vote in: the voter's previous vote stops counting, the new
      vote replaces it, and a retraction (mode 0) removes the voter. A mode
      other than +1, -1 and 0 is recorded but counted nowhere. */
  function Add(r: VotesRep, v: Vote): (r': VotesRep)
    ensures r'.ref == r.ref
    ensures v.mode == 0 ==> v.creator !in r'.votes
    ensures v.mode != 0 ==> v.creator in r'.votes && r'.votes[v.creator] == v
    ensures forall k :: k in r.votes && k != v.creator ==> k in r'.votes && r'.votes[k] == r.votes[k]
    ensures forall k :: k in r'.votes ==> k in r.votes || k == v.creator
  {
    var had := v.creator in r.votes;
    var up := if had && r.votes[v.creator].mode == 1 then r.upCount - 1 else r.upCount;
    var down := if had && r.votes[v.creator].mode == -1 then r.downCount - 1 else r.downCount;
    var votes := r.votes[v.creator := v];
    if v.mode == 1 then r.(votes := votes, upCount := up + 1, downCount := down)
    else if v.mode == -1 then r.(votes := votes, upCount := up, downCount := down + 1)
    else if v.mode == 0 then r.(votes := votes - {v.creator}, upCount := up, downCount := down)
    else r.(votes := votes, upCount := up, downCount := down)
  }

  /** The voters whose recorded vote has the given mode. */
  function Voters(votes: map<PubKey, Vote>, mode: int): set<PubKey>
  {
    set k | k in votes && votes[k].mode == mode
  }

  /** The tallies agree with the recorded votes. */
  predicate Tallied(r: VotesRep)
  {
    r.upCount == |Voters(r.votes, 1)| && r.downCount == |Voters(r.votes, -1)|
  }

  /** Every recorded vote is filed under its own voter and none is a retraction. */
  predicate Keyed(r: VotesRep)
  {
    forall k :: k in r.votes ==> r.votes[k].creator == k && r.votes[k].mode != 0
  }

  /** The invariant every aggregate built by `Fill` and `Add` keeps. */
  predicate WellFormed(r: VotesRep)
  {
    Tallied(r) && Keyed(r)
  }

  /** A fresh aggregate, filled for a target, holds no votes and zero tallies. */
  lemma FillIsWellFormed(hash: Hash)
    ensures WellFormed(Fill(NewVotesRep(), hash))
    ensures Fill(NewVotesRep(), hash).upCount == 0 && Fill(NewVotesRep(), hash).downCount == 0
  {
    assert Voters(map[], 1) == {};
    assert Voters(map[], -1) == {};
  }

  /** How one `Add` changes the set of voters of a counted mode. */
  lemma VotersAfterAdd(r: VotesRep, v: Vote, m: int)
    requires m != 0
    ensures Voters(Add(r, v).votes, m)
            == (Voters(r.votes, m) - {v.creator}) + (if v.mode == m then {v.creator} else {})
  {
  }

  /** Removing one element and possibly putting it back changes a set's
      size by the obvious amount. */
  lemma CardinalityOfSwap(s: set<PubKey>, c: PubKey, back: bool)
    ensures |(s - {c}) + (if back then {c} else {})| == |s| - (if c in s then 1 else 0) + (if back then 1 else 0)
  {
    if c in s {
      assert s == (s - {c}) + {c};
    } else {
      assert s - {c} == s;
    }
  }

  /** The size of a counted mode's voter set after one `Add`. */
  lemma VoterCountAfterAdd(r: VotesRep, v: Vote, m: int)
    requires m != 0
    ensures |Voters(Add(r, v).votes, m)|
            == |Voters(r.votes, m)|
               - (if v.creator in r.votes && r.votes[v.creator].mode == m then 1 else 0)
               + (if v.mode == m then 1 else 0)
  {
    VotersAfterAdd(r, v, m);
    CardinalityOfSwap(Voters(r.votes, m), v.creator, v.mode == m);
    assert v.creator in Voters(r.votes, m) <==> v.creator in r.votes && r.votes[v.creator].mode == m;
  }

  /** `Add` keeps the tallies equal to the number of up and down voters, so
      they never go negative. */
  lemma {:induction false} AddKeepsWellFormed(r: VotesRep, v: Vote)
    requires WellFormed(r)
    ensures WellFormed(Add(r, v))
    ensures Add(r, v).upCount >= 0 && Add(r, v).downCount >= 0
  {
    VoterCountAfterAdd(r, v, 1);
    VoterCountAfterAdd(r, v, -1);
  }

  /** Folds a sequence of votes, first to last. */
  function FoldVotes(r: VotesRep, vs: seq<Vote>): VotesRep
  {
    if |vs| == 0 then r else Add(FoldVotes(r, vs[..|vs| - 1]), vs[|vs| - 1])
  }

  /** Folding one more vote is one more `Add`. */
  lemma FoldVotesSnoc(r: VotesRep, vs: seq<Vote>, x: Vote)
    ensures FoldVotes(r, vs + [x]) == Add(FoldVotes(r, vs), x)
  {
    assert (vs + [x])[..|vs|] == vs;
  }

  /** Any fold from a well-formed aggregate stays well formed. */
  lemma {:induction false} FoldKeepsWellFormed(r: VotesRep, vs: seq<Vote>)
    requires WellFormed(r)
    ensures WellFormed(FoldVotes(r, vs))
  {
    if |vs| > 0 {
      FoldKeepsWellFormed(r, vs[..|vs| - 1]);
      AddKeepsWellFormed(FoldVotes(r, vs[..|vs| - 1]), vs[|vs| - 1]);
    }
  }

  /** One voter voting up, down, up and then retracting leaves no tally and
      no entry behind. */
  lemma RetractedVoterLeavesNoTrace(target: Hash, c: PubKey)
    ensures var r := FoldVotes(Fill(NewVotesRep(), target), [Vote(c, 1), Vote(c, -1), Vote(c, 1), Vote(c, 0)]);
            r.upCount == 0 && r.downCount == 0 && c !in r.votes
  {
    var vs := [Vote(c, 1), Vote(c, -1), Vote(c, 1), Vote(c, 0)];
    var r0 := Fill(NewVotesRep(), target);
    ReVoteCountsOnce(target, c);
    assert vs[..3] == [Vote(c, 1), Vote(c, -1), Vote(c, 1)];
    var r3 := FoldVotes(r0, vs[..3]);
    assert FoldVotes(r0, vs) == Add(r3, Vote(c, 0));
  }

  /** One voter voting up, down and up again counts once, as one entry. */
  lemma ReVoteCountsOnce(target: Hash, c: PubKey)
    ensures var r := FoldVotes(Fill(NewVotesRep(), target), [Vote(c, 1), Vote(c, -1), Vote(c, 1)]);
            r.upCount == 1 && r.downCount == 0 && r.votes == map[c := Vote(c, 1)]
  {
    var vs := [Vote(c, 1), Vote(c, -1), Vote(c, 1)];
    var r0 := Fill(NewVotesRep(), target);
    assert vs[..2][..1][..0] == [];
    assert vs[..2][..1] == [Vote(c, 1)];
    assert vs[..2] == [Vote(c, 1), Vote(c, -1)];
    var r1 := Add(r0, Vote(c, 1));
    assert r1.upCount == 1 && r1.downCount == 0 && r1.votes == map[c := Vote(c, 1)];
    assert FoldVotes(r0, vs[..2][..1]) == r1;
    var r2 := Add(r1, Vote(c, -1));
    assert r2.upCount == 0 && r2.downCount == 1 && r2.votes == map[c := Vote(c, -1)];
    assert FoldVotes(r0, vs[..2]) == r2;
    var r3 := Add(r2, Vote(c, 1));
    assert r3.upCount == 1 && r3.downCount == 0 && r3.votes == map[c := Vote(c, 1)];
    assert FoldVotes(r0, vs) == r3;
  }

  /** One side of a vote view: whether the perspective voter voted this way,
      and how many did. */
  datatype Tally = Tally(voted: bool, count: int)

  datatype VoteRepView = VoteRepView(ref: Hash, up: Tally, down: Tally)

  /** A nil aggregate has a nil view; otherwise the tallies are copied and the
      `voted` flags come from the perspective voter's recorded vote. */
  function VotesView(r: Option<VotesRep>, perspective: PubKey): (v: Option<VoteRepView>)
    ensures v.Some? <==> r.Some?
    ensures r.Some? ==> v.value.ref == r.value.ref
    ensures r.Some? ==> v.value.up.count == r.value.upCount && v.value.down.count == r.value.downCount
    ensures r.Some? ==> (v.value.up.voted <==> perspective in r.value.votes && r.value.votes[perspective].mode == 1)
    ensures r.Some? ==> (v.value.down.voted <==> perspective in r.value.votes && r.value.votes[perspective].mode == -1)
  {
    match r
    case None => None
    case Some(rep) =>
      var voted := perspective in rep.votes;
      Some(VoteRepView(rep.ref,
                       Tally(voted && rep.votes[perspective].mode == 1, rep.upCount),
                       Tally(voted && rep.votes[perspective].mode == -1, rep.downCount)))
  }

  /** On a well-formed aggregate the view's counts are the numbers of up and
      down voters, and a set `voted` flag means the perspective voter is
      among them. */
  lemma VotesViewCountsVoters(r: VotesRep, perspective: PubKey)
    requires WellFormed(r)
    ensures VotesView(Some(r), perspective).value.up.count == |Voters(r.votes, 1)|
    ensures VotesView(Some(r), perspective).value.down.count == |Voters(r.votes, -1)|
    ensures VotesView(Some(r), perspective).value.up.voted <==> perspective in Voters(r.votes, 1)
    ensures VotesView(Some(r), perspective).value.down.voted <==> perspective in Voters(r.votes, -1)
    ensures !(VotesView(Some(r), perspective).value.up.voted && VotesView(Some(r), perspective).value.down.voted)
  {
  }
}
